=== FILE: README.md ===
# Blender file repair: a Dafny model of the repair engine

This project models the core of `repair_blend.py`, a tool that repairs corrupted
Blender `.blend` files. The tool works in three stages:

- It sniffs the file header: the gzip magic `1F 8B`, the zstandard magic
  `28 B5 2F FD`, the `BLENDER` signature, and the version digits in bytes 9 to 11.
- It transcodes with gzip or zstandard.
- It runs up to four repair strategies, in a fixed order, until one is accepted:
  1. a decompress/recompress pass, which needs no Blender;
  2. a background open-and-resave in Blender;
  3. an append-everything recovery;
  4. a block-by-block recovery.

The Blender strategies run a generated Python script in a Blender subprocess.
Success is judged by a sentinel string in the combined output. When Blender is
available, strategy 1's result is checked by a verification run. Before any
repair, the input is backed up once to `<input>.backup`.

The model is purely functional:

- The filesystem is a map from path to contents. A path missing from the map is
  a file that cannot be opened.
- Every step returns its boolean verdict together with the filesystem it leaves
  behind.
- The gzip and zstandard libraries are oracle functions that either finish or
  fail part way with some partial output (`Codec.Backend`).
- Blender is an oracle that says how a run ended (exit status and output,
  timeout, or launch failure) and what it left at the job's output path
  (`Process.Collaborator`).
- `find_blender`'s answer and the temporary file names are parameters of the
  session (`Repair.Env`).

Modules:

| module | file | what it covers |
|---|---|---|
| `Wrappers` | wrappers.dfy | `Option` |
| `ByteStrings` | bytestrings.dfy | bytes, Python slicing, `needle in text` |
| `Files` | files.dfy | the filesystem map, guarded removal, the "kept" frame predicate |
| `Sniffer` | sniffer.dfy | `get_compression_type`, `is_blend_file`, `is_compressed` |
| `Version` | version.dfy | `get_blend_version` |
| `Codec` | codec.dfy | `decompress_blend`, `compress_blend` |
| `Process` | process.dfy | `run_blender_script` and the sentinel tests |
| `Strategies` | strategies.dfy | `repair_compression`, strategies 2 to 4 as runs of their scripts, the verification run |
| `Repair` | repair.dfy | `repair_blend_file`: rejection, default output, backup, strategy order |

## Model

| member | source | states |
|---|---|---|
| `Sniffer.CompressionType` | repair_blend.py:61-77 | The kind is gzip iff the file starts with `1F 8B`, zstd iff it starts with `28 B5 2F FD`, and uncompressed (the tool's `None`) iff it starts with `BLEN`. A read failure, or a file shorter than two bytes, is `unknown`. |
| `Sniffer.IsBlendFile` | repair_blend.py:80-96 | A file is accepted iff it can be read and starts with `BLENDER`, the gzip magic or the zstd magic. An accepted file always has a known compression kind. |
| `Sniffer.IsCompressed` | repair_blend.py:99-102 | True iff the file starts with the gzip or zstd magic. A compressed file is always accepted as a .blend file. |
| `Sniffer.CompressionTypeReadsFourBytes` | repair_blend.py:63-74 | Bytes after the fourth never change the compression kind. |
| `Sniffer.CompressionTypeOfHeader` | repair_blend.py:64-65 | The kind of a file equals the kind of its first four bytes alone. |
| `Sniffer.ShortGzipFile` | repair_blend.py:65-68 | The two-byte file `1F 8B` and the three-byte file `1F 8B 00` are both gzip and both accepted. |
| `Sniffer.BlenWithoutDerIsRejected` | repair_blend.py:61-96 | `BLEN` followed by `DEX` is classified as uncompressed, yet `is_blend_file` rejects it. So "known kind" does not imply "accepted". |
| `Version.StripLeadingZeros` | repair_blend.py:129 | Python's `lstrip('0')`. The result is a suffix of the input, every removed character is `'0'`, and the result does not start with `'0'`. |
| `Version.AsciiDecode` | repair_blend.py:127 | The decode keeps the length and maps each byte to the character with that code. |
| `Version.ParseVersion` | repair_blend.py:125-130 | A version is returned iff the header starts with `BLENDER`, has at least 10 bytes, and bytes 9 to 11 (clipped) are ASCII. It is then byte 9, a dot, and bytes 10 to 11 without their leading zeros, or `0` when nothing is left. |
| `Version.ParseFullHeader` | repair_blend.py:125-130 | On a `BLENDER` header of 12 or more bytes whose bytes 9 to 11 are ASCII, the result is the rendering of those three bytes alone. |
| `Version.FieldText` | repair_blend.py:128-130 | Per case, the rendering of a three-character field: both minor digits, the last digit alone, or `0`. |
| `Version.VersionExamples` | repair_blend.py:126-130 | `400`, `402`, `293`, `005`, `050` and `4x0` render as `4.0`, `4.2`, `2.93`, `0.5`, `0.50` and `4.x0`. |
| `Version.MinorIsTwoDigitNumber` | repair_blend.py:126-130 | For a digit field, the major part is the digit in byte 9. The minor part, read as a decimal number, is the two-digit number in bytes 10 and 11. |
| `Version.MinorOfDigits` | repair_blend.py:128-130 | For digit minor characters, the rendering keeps the major character first. Its minor part consists of digits and is worth the two-digit number. |
| `Version.ShortHeaderExamples` | repair_blend.py:125-133 | A `BLENDER` header of at most 9 bytes gives no version. One of exactly 10 bytes with an ASCII byte 9 gives that byte as the major part and `0` as the minor part. |
| `Version.StreamHeader` | repair_blend.py:113-120 | A header is read iff the decoder finishes or fails only after producing twelve bytes. It is then the first twelve bytes of the decoded stream, or all of it when shorter. |
| `Version.BlendVersion` | repair_blend.py:105-133 | zstd without the zstandard module, or an unreadable file, gives no version. An uncompressed or unknown file is parsed from its own first twelve bytes. A gzip file, or a zstd file with the module, is parsed from the first twelve decoded bytes. A decoder failing before twelve bytes gives no version. |
| `Codec.Transcoded` | repair_blend.py:146-153 | If the input is missing, the result is failure and nothing is written. Otherwise the output is created. The call succeeds iff the codec finishes, and then the output holds the codec's result. When the codec breaks off, the output keeps the partial bytes written before the break. No other path changes. |
| `Codec.DecompressBlend` | repair_blend.py:136-160 | An unknown kind, or zstd without the module, fails and leaves the filesystem unchanged. So does an auto-detected kind that is not gzip or zstd. A readable input with a usable kind (requested, or detected when none is requested) succeeds iff that kind's decoder finishes, and the output then holds its result. |
| `Codec.CompressBlend` | repair_blend.py:163-186 | Only gzip and zstd are accepted. zstd without the module encodes with gzip. A readable input succeeds iff the chosen encoder finishes, and the output then holds its result. Nothing but the output changes. |
| `Codec.ZstdFallsBackToGzip` | repair_blend.py:166-181 | Without the zstandard module, compressing with zstd is exactly compressing with gzip. |
| `Strategies.RepairCompression` | repair_blend.py:189-228 | zstd input without the module fails and leaves the filesystem unchanged, and so does a missing input. A fresh temporary file is removed on every path, and nothing but the output changes. |
| `Strategies.UnpackAndRepack` | repair_blend.py:208-225 | The compressed branch touches only the temporary file and the output, and succeeds only with the output written. |
| `Strategies.CompressionOfPlainInput` | repair_blend.py:204-206 | An uncompressed or unknown input succeeds iff the preferred encoder finishes (zstd, or gzip without the module). The output then holds the encoded input. |
| `Strategies.PlainInputResidue` | repair_blend.py:163-186 | An uncompressed or unknown input whose preferred encoder breaks off fails strategy 1, and the output is left holding the partial bytes written before the break. |
| `Strategies.CompressionOfPackedInput` | repair_blend.py:208-225 | A gzip or decodable zstd input succeeds iff decoding finishes, the payload is a .blend file, and re-encoding with the same codec finishes. The output then holds the re-encoded payload. |
| `Strategies.InvalidPayloadFails` | repair_blend.py:216-219 | A decoded payload that is not a .blend file fails strategy 1 before anything is written to the output, so the output is left as it was. |
| `Strategies.RunBlenderStrategy` | repair_blend.py:283-290 | Strategies 2 to 4 (also lines 374-385 and 463-473) succeed iff Blender exits with status 0 and the combined output contains `REPAIR_SUCCESS` (strategy 2) or `RECOVERY_SUCCESS` (3 and 4). The script is gone afterwards, and only the output changes. |
| `Strategies.BlenderStrategyOutput` | repair_blend.py:276 | After a strategy's run, the output holds exactly what Blender saved there. It is untouched when Blender saved nothing. |
| `Strategies.VerifyRepaired` | repair_blend.py:529-539 | Verification succeeds iff `VERIFY_SUCCESS` appears in the output of a 60-second run, whatever the exit status. It changes nothing but the script path. |
| `Process.Capture` | repair_blend.py:244-249 | The verdict is true iff the process exited with status 0. The output is stdout followed by stderr. A timeout gives the fixed timeout message, and a launch failure gives the error text. |
| `Process.RunBlenderScript` | repair_blend.py:231-252 | The captured result is the mapping of the run's outcome. The script file is removed on every path. Only the job's target changes, and only to what Blender left there. |
| `Process.CaptureKeepsBothStreams` | repair_blend.py:244-245 | A sentinel printed on either stream is seen in the captured output. |
| `Process.ExitCodeNotSufficient` | repair_blend.py:285 | A clean exit whose output lacks the strategy's sentinel fails the strategy, although the exit alone is a success. |
| `Process.OnlyCleanExitSucceeds` | repair_blend.py:376 | A non-zero exit, timeout or launch failure fails strategies 2 to 4, whatever the output. |
| `Process.VerifyIgnoresExitStatus` | repair_blend.py:534-537 | A crashing process that printed `VERIFY_SUCCESS` on either stream still confirms the repair. |
| `Process.TimeoutNeverVerifies` | repair_blend.py:246-247 | The timeout message never contains `VERIFY_SUCCESS`, so a timed-out verification never confirms. |
| `ByteStrings.HasSentinel` | repair_blend.py:285 | The scan returns true iff some position of the text starts a copy of the sentinel (Python's `in`). |
| `Files.Remove` | repair_blend.py:227-228 | The guarded unlink removes the path and keeps every other path. |
| `Repair.SplitExt` | repair_blend.py:492 | `os.path.splitext`: the two parts concatenate back to the path, and the extension is empty or a dot followed by no slash. |
| `Repair.SplitExtFindsExtension` | repair_blend.py:492 | A final `.ext` (no further dots or slashes) after a last component with a non-dot character is split off exactly. |
| `Repair.SplitExtWithoutExtension` | repair_blend.py:492 | A last component with no dot, or with only leading dots (`.blend`, `..blend`), has no extension. |
| `Repair.DefaultOutput` | repair_blend.py:491-493 | The default output is some split of the input with `_repaired` inserted between the two parts. |
| `Repair.DefaultOutputShapes` | repair_blend.py:491-493 | `scene.blend` gives `scene_repaired.blend` (for any such base and extension), and a name without extension gets `_repaired` appended. |
| `Repair.DefaultOutputIsFresh` | repair_blend.py:491-497 | The default output is nine characters longer than the input, so it is never the input or the backup. |
| `Repair.ResolveBlender` | repair_blend.py:516-522 | An explicit path wins. Discovery counts only without one. The result is always the explicit or the discovered path, so none given and none found means no Blender. An empty path means no Blender, even when given explicitly. |
| `Repair.WithBackup` | repair_blend.py:496-500 | The backup is copied from the input only when absent, and an existing backup is left as it is. |
| `Repair.BlenderPhase` | repair_blend.py:548-563 | Strategies 2 to 4 end in a verified success or in exhaustion, after at least one attempt. |
| `Repair.BlenderPhaseOrder` | repair_blend.py:548-561 | Attempts run in rank order, and the phase moves on only from rejected ones. |
| `Repair.BlenderPhaseAccepts` | repair_blend.py:548-561 | Each attempt of strategies 2 to 4 is accepted iff it succeeded. What success means is stated by `Repair.BlenderPhaseVerdicts`. |
| `Repair.BlenderPhaseEnding` | repair_blend.py:548-563 | The phase succeeds iff its last attempt does. It is exhausted only after strategy 4 has run. |
| `Repair.BlenderPhaseFootprint` | repair_blend.py:548-561 | No script is left behind, and nothing but the output and the script path changes. |
| `Repair.BlenderPhaseVerdicts` | repair_blend.py:548-561 | Every attempt of strategies 2 to 4 succeeds iff Blender's run of that strategy's job exited with status 0 and printed the strategy's sentinel. |
| `Repair.BlenderPhaseWinner` | repair_blend.py:548-561 | A repair by strategies 2 to 4 was won on Blender's verdict. The output then holds what the winning run saved. |
| `Repair.AfterCompression` | repair_blend.py:524-546 | The session stops at "needs Blender" or at an unverified strategy-1 success exactly when no Blender is available. |
| `Repair.AfterCompressionOrder` | repair_blend.py:524-561 | Attempts follow ranks 1, 2, 3, 4, and the session moves on only from rejected ones. |
| `Repair.AfterCompressionEnding` | repair_blend.py:524-563 | The session succeeds iff its last attempt is accepted, and that attempt names the winner. An exhausted session ran all four strategies. |
| `Repair.AfterCompressionFirst` | repair_blend.py:524-546 | Strategy 1 runs first and its success is recorded as is. Without Blender it is the only attempt and its success is accepted. With Blender it is accepted iff it succeeded and verification confirmed it; otherwise another attempt follows. |
| `Repair.CompressionWinnerKeepsOutput` | repair_blend.py:524-541 | When strategy 1 wins, it succeeded, and the output still holds exactly what strategy 1 wrote: the verification run does not touch it. |
| `Repair.AfterCompressionFootprint` | repair_blend.py:524-561 | After strategy 1, only the output and the script path change, and no script is left behind. |
| `Repair.AfterCompressionVerdicts` | repair_blend.py:548-561 | With Blender, every attempt after strategy 1 succeeds iff Blender's verdict for its strategy holds. A repair by strategies 2 to 4 leaves the winning run's saved file at the output. |
| `Repair.RepairBlendFile` | repair_blend.py:476-488 | A missing input ends in "not found" and an unrecognised one in "not a .blend file". Both make no attempt and change no file. |
| `Repair.SessionOrder` | repair_blend.py:524-570 | Over all inputs, attempts follow the fixed order. The session succeeds iff some attempt was accepted, which is then the last. An exhausted session ran all four strategies. |
| `Repair.WithoutBlenderOnlyCompression` | repair_blend.py:540-546 | Without Blender, exactly strategy 1 runs. Its success is the result (unverified), and its failure ends the session. |
| `Repair.WithBlenderCompressionIsVerified` | repair_blend.py:525-539 | With Blender, strategy 1 is accepted iff it succeeded and verification confirmed it. Otherwise strategy 2 runs next. Every success is verified. |
| `Repair.SessionVerdicts` | repair_blend.py:548-561 | Over a whole session with Blender, strategies 2 to 4 succeed iff Blender exits with status 0 and prints the strategy's sentinel. A repair they win leaves what Blender saved at the output. |
| `Repair.SessionCompressionWinner` | repair_blend.py:524-541 | A session won by strategy 1 had a readable input, strategy 1 on the backed-up filesystem succeeded, and the output holds exactly what it wrote. |
| `Repair.SessionFootprint` | repair_blend.py:476-570 | With fresh temporary names, no temporary file survives, and nothing but the output and the backup changes. |
| `Repair.InputUntouched` | repair_blend.py:476-570 | With fresh temporary names, and an output other than the input itself, the input file is never modified. |
| `Repair.BackupTakenOnce` | repair_blend.py:496-500 | After a session on an accepted input, with fresh temporary names and an output other than the backup path, the backup exists. It holds the original input if it was absent, and its earlier contents otherwise. |
| `Repair.RerunKeepsBackup` | repair_blend.py:496-500 | Running the tool a second time leaves the backup written by the first run unchanged. This holds when the output is not the backup path and both runs get fresh temporary names. |
| `Repair.OutputAtBackupReplacesIt` | repair_blend.py:496-500 | With `<input>.backup` as the output and no Blender, a successful strategy 1 on an uncompressed input leaves its recompressed result in the backup instead of the original. |

## Behaviour worth knowing

- A failed strategy never removes its partial output.
  - A codec that breaks part way leaves its partial bytes at the output
    (lines 145-160 and 165-186).
  - A failed Blender run leaves whatever Blender wrote there (lines 231-252).

  The model keeps that residue (`Codec.Transcoded`, `Strategies.PlainInputResidue`,
  `Process.RunBlenderScript`).
  Its frame lemmas therefore exempt the output path from "nothing else changes".
- A version field `050` renders as `0.50`, because `lstrip('0')` strips only
  leading zeros (line 129; `Version.VersionExamples`).
- The compression sniffer classifies any file starting with `BLEN` as
  uncompressed (line 73). The header check demands the full `BLENDER`
  (line 86; `Sniffer.BlenWithoutDerIsRejected`).
- Nothing checks that the output differs from `<input>.backup`. With that
  output, strategy 1 overwrites the backup taken at lines 497-500, and
  strategies 2 to 4 can overwrite it again (`Repair.OutputAtBackupReplacesIt`).
  `Repair.BackupTakenOnce` and `Repair.RerunKeepsBackup` therefore assume the
  output is not the backup path.

## Left out

- `find_blender` (lines 34-58) probes `PATH` and fixed install locations. Its
  answer is the `discovered` parameter of `Repair.Env`.
- `main`, argument parsing, and every `print` are user interface only.
- The texts of the generated Blender scripts, and what Blender does with them,
  are collaborator code. Blender is the oracle `Process.Collaborator`.
- The gzip and zstandard codecs themselves (levels, stream formats) are oracles
  in `Codec.Backend`.
- `os.path.abspath` on the input and output paths (lines 480, 494) is not
  modelled. Paths are compared as given.
- `shutil.copy2` copies metadata too. The model copies contents only.
- The `get_blend_version` and `get_compression_type` calls inside
  `repair_blend_file` (lines 508-513) only print. The session does not model
  them; `Version.BlendVersion` models the function itself.
- Blender is assumed to write nothing but the job's output path.
  `save_as_mainfile` over an existing file may also keep the previous copy as
  `<output>1`, depending on Blender's save-versions preference. The output
  does exist when strategy 2 runs after a failed strategy 1. The footprint
  lemmas (`Repair.SessionFootprint`, `Repair.BlenderPhaseFootprint`,
  `Repair.AfterCompressionFootprint`) hold only under this assumption.
- Writes never fail in the model. In the tool:
  - a failing `shutil.copy2` for the backup (line 500) raises out of
    `repair_blend_file`;
  - so does a failing temporary-file creation (lines 208, 233);
  - an unwritable output makes `compress_blend` and `decompress_blend` return
    False (lines 158-160, 184-186), where the model still writes the output.
- `tempfile` naming is not modelled. Each session uses one temporary `.blend`
  name and one script name, given in `Repair.Env`. Freshness is a hypothesis
  (`Repair.FreshScratch`) standing for `mkstemp`'s guarantee.
- The filesystem has only present and absent files. Permission errors,
  directories at a path, a missing output directory and short reads are not
  distinguished from an absent file. `os.path.exists` and a successful open
  are taken to agree.
- An output path equal to the input: the model reads the whole input before it
  writes, while the code streams between two handles of the same file.
  `Repair.InputUntouched` therefore assumes the output is not the input.
- The timeout values (60, 180, 300, 300 seconds) are modelled in
  `Process.TimeoutOf`. Elapsed time and process killing are part of the oracle's
  `TimedOut` answer.
- `Strategies.RepairCompression`: promises the output exists after a success
  only when the output is not the temporary file. With a fresh temporary file,
  which is the case `tempfile` guarantees, this is the full promise.

=== FILE: bytestrings.dfy ===
/**
 * Byte sequences, the two Python slicing forms the repair tool relies on,
 * and the substring test (`needle in text`) it uses to look for sentinels
 * in a process's output.
 */
module ByteStrings {

  newtype byte = x: int | 0 <= x < 256

  type Bytes = seq<byte>

  /** Python's `s[:n]`: the first `n` elements, or all of `s` when it is shorter. */
  function Take<T>(s: seq<T>, n: nat): (r: seq<T>)
    ensures |r| == if |s| < n then |s| else n
    ensures r <= s
  {
    if |s| < n then s else s[..n]
  }

  /** Python's `s[i:j]` for `0 <= i <= j`: both bounds are clipped to `|s|`. */
  function Slice<T>(s: seq<T>, i: nat, j: nat): (r: seq<T>)
    requires i <= j
    ensures |s| <= i ==> r == []
    ensures j <= |s| ==> r == s[i..j]
    ensures i <= |s| < j ==> r == s[i..]
  {
    var hi := if |s| < j then |s| else j;
    var lo := if hi < i then hi else i;
    s[lo..hi]
  }

  /** `needle` occurs in `text` starting at position `i`. */
  predicate OccursAt(text: string, needle: string, i: int)
  {
    0 <= i && i + |needle| <= |text| && text[i..i + |needle|] == needle
  }

  /** Python's `needle in text`: some position of `text` starts a copy of `needle`. */
  predicate Contains(text: string, needle: string)
  {
    exists i | 0 <= i <= |text| - |needle| :: OccursAt(text, needle, i)
  }

  /** A sentinel found in the first part of a concatenation is found in the whole. */
  lemma ContainsInPrefix(a: string, b: string, needle: string)
    requires Contains(a, needle)
    ensures Contains(a + b, needle)
  {
    var i :| 0 <= i <= |a| - |needle| && OccursAt(a, needle, i);
    assert (a + b)[i..i + |needle|] == a[i..i + |needle|];
    assert OccursAt(a + b, needle, i);
  }

  /** A sentinel found in the second part of a concatenation is found in the whole. */
  lemma ContainsInSuffix(a: string, b: string, needle: string)
    requires Contains(b, needle)
    ensures Contains(a + b, needle)
  {
    var i :| 0 <= i <= |b| - |needle| && OccursAt(b, needle, i);
    var j := |a| + i;
    assert (a + b)[j..j + |needle|] == b[i..i + |needle|] == needle;
    assert OccursAt(a + b, needle, j);
  }

  /** The executable form of `needle in text`: scan every start position left to right. */
  method HasSentinel(text: string, needle: string) returns (found: bool)
    ensures found <==> Contains(text, needle)
  {
    if |text| < |needle| {
      return false;
    }
    var i := 0;
    while i <= |text| - |needle|
      invariant 0 <= i <= |text| - |needle| + 1
      invariant forall j :: 0 <= j < i ==> !OccursAt(text, needle, j)
    {
      if text[i..i + |needle|] == needle {
        assert OccursAt(text, needle, i);
        return true;
      }
      i := i + 1;
    }
    return false;
  }
}

=== FILE: codec.dfy ===
/**
 * Codec selection in `decompress_blend` and `compress_blend`. The gzip and
 * zstandard libraries are oracles: given a codec and the bytes of the input
 * file, they either finish (`Done`) or fail part way (`Broken`), having
 * written some partial output by then.
 */
module Codec {
  import opened Wrappers
  import opened ByteStrings
  import opened Files
  import opened Sniffer

  /** What a streaming codec produced from one input. */
  datatype Transcode = Done(data: Bytes) | Broken(partial: Bytes)

  /** The codec libraries available to the tool: whether the zstandard
      module imported, and the decoder and encoder for a named codec. */
  datatype Backend = Backend(
    hasZstd: bool,
    decode: (Compression, Bytes) -> Transcode,
    encode: (Compression, Bytes) -> Transcode)

  /** The decoder `decompress_blend` uses. A requested `Uncompressed` stands for
      the tool's `None` argument, which means "detect from the input file". */
  function DecoderFor(requested: Compression, detected: Compression, hasZstd: bool): Option<Compression>
  {
    var kind := if requested == Uncompressed then detected else requested;
    if kind == Gzip || (kind == Zstd && hasZstd) then Some(kind) else None
  }

  /** The encoder `compress_blend` uses: zstd degrades to gzip without the zstandard module. */
  function EncoderFor(requested: Compression, hasZstd: bool): Option<Compression>
  {
    if requested == Zstd then Some(if hasZstd then Zstd else Gzip)
    else if requested == Gzip then Some(Gzip)
    else None
  }

  /** Stream the input file through a codec into the output file. Both codecs
      open the input first (a missing input fails with nothing written) and
      then create the output before any byte is transcoded. */
  function Transcoded(fs: FileSystem, input: Path, output: Path, run: Bytes -> Transcode): (e: Effect)
    ensures input !in fs ==> !e.ok && e.fs == fs
    ensures input in fs ==> output in e.fs
    ensures e.ok <==> input in fs && run(fs[input]).Done?
    ensures e.ok ==> e.fs[output] == run(fs[input]).data
    ensures input in fs && run(fs[input]).Broken? ==> e.fs[output] == run(fs[input]).partial
    ensures forall p :: p != output ==> Kept(fs, e.fs, p)
  {
    if input !in fs then Effect(false, fs)
    else
      match run(fs[input])
      case Done(data) => Effect(true, fs[output := data])
      case Broken(partial) => Effect(false, fs[output := partial])
  }

  /** `decompress_blend`. */
  function DecompressBlend(fs: FileSystem, backend: Backend, input: Path, output: Path, requested: Compression): (e: Effect)
    ensures requested == Unknown ==> !e.ok && e.fs == fs
    ensures requested == Zstd && !backend.hasZstd ==> !e.ok && e.fs == fs
    ensures requested == Uncompressed && CompressionType(Read(fs, input)) !in {Gzip, Zstd} ==> !e.ok && e.fs == fs
    ensures e.ok ==> input in fs && output in e.fs
    ensures e.ok && requested != Uncompressed ==> backend.decode(requested, fs[input]) == Done(e.fs[output])
    ensures e.ok && requested == Uncompressed ==>
      backend.decode(CompressionType(Some(fs[input])), fs[input]) == Done(e.fs[output])
    ensures requested == Uncompressed && CompressionType(Read(fs, input)) == Zstd && !backend.hasZstd ==> !e.ok && e.fs == fs
    ensures input in fs && (requested == Gzip || (requested == Zstd && backend.hasZstd)) ==>
      (e.ok <==> backend.decode(requested, fs[input]).Done?)
    ensures input in fs && requested == Uncompressed
            && (CompressionType(Some(fs[input])) == Gzip || (CompressionType(Some(fs[input])) == Zstd && backend.hasZstd)) ==>
      (e.ok <==> backend.decode(CompressionType(Some(fs[input])), fs[input]).Done?)
    ensures forall p :: p != output ==> Kept(fs, e.fs, p)
  {
    match DecoderFor(requested, CompressionType(Read(fs, input)), backend.hasZstd)
    case None => Effect(false, fs)
    case Some(codec) => Transcoded(fs, input, output, data => backend.decode(codec, data))
  }

  /** `compress_blend`. */
  function CompressBlend(fs: FileSystem, backend: Backend, input: Path, output: Path, requested: Compression): (e: Effect)
    ensures requested !in {Gzip, Zstd} ==> !e.ok && e.fs == fs
    ensures e.ok ==> input in fs && output in e.fs
    ensures e.ok && requested == Gzip ==> backend.encode(Gzip, fs[input]) == Done(e.fs[output])
    ensures e.ok && requested == Zstd && backend.hasZstd ==> backend.encode(Zstd, fs[input]) == Done(e.fs[output])
    ensures e.ok && requested == Zstd && !backend.hasZstd ==> backend.encode(Gzip, fs[input]) == Done(e.fs[output])
    ensures requested in {Gzip, Zstd} && input in fs ==> output in e.fs
    ensures input in fs && requested == Gzip ==> (e.ok <==> backend.encode(Gzip, fs[input]).Done?)
    ensures input in fs && requested == Zstd && backend.hasZstd ==> (e.ok <==> backend.encode(Zstd, fs[input]).Done?)
    ensures input in fs && requested == Zstd && !backend.hasZstd ==> (e.ok <==> backend.encode(Gzip, fs[input]).Done?)
    ensures forall p :: p != output ==> Kept(fs, e.fs, p)
  {
    match EncoderFor(requested, backend.hasZstd)
    case None => Effect(false, fs)
    case Some(codec) => Transcoded(fs, input, output, data => backend.encode(codec, data))
  }

  /** Compressing with zstd and no zstandard module is exactly compressing with gzip. */
  lemma ZstdFallsBackToGzip(fs: FileSystem, backend: Backend, input: Path, output: Path)
    requires !backend.hasZstd
    ensures CompressBlend(fs, backend, input, output, Zstd) == CompressBlend(fs, backend, input, output, Gzip)
  {
  }
}

=== FILE: files.dfy ===
/**
 * The filesystem as the repair tool sees it: a map from path to file
 * contents. A path missing from the map is a file that cannot be opened.
 */
module Files {
  import opened Wrappers
  import opened ByteStrings

  type Path = string

  type FileSystem = map<Path, Bytes>

  /** The whole contents of a file, or `None` when opening it fails. */
  function Read(fs: FileSystem, p: Path): (r: Option<Bytes>)
    ensures r.Some? <==> p in fs
    ensures r.Some? ==> r.value == fs[p]
  {
    if p in fs then Some(fs[p]) else None
  }

  /** `os.unlink` guarded by `os.path.exists`: removing an absent file is a no-op. */
  function Remove(fs: FileSystem, p: Path): (r: FileSystem)
    ensures p !in r
    ensures forall q :: q != p ==> Kept(fs, r, q)
  {
    fs - {p}
  }

  /** Path `p` exists in `after` exactly when it did in `before`, with the same contents. */
  predicate Kept(before: FileSystem, after: FileSystem, p: Path)
  {
    (p in before <==> p in after) && (p in before ==> before[p] == after[p])
  }

  /** What one step of the tool reports (its boolean result) and leaves on disk. */
  datatype Effect = Effect(ok: bool, fs: FileSystem)
}

=== FILE: process.dfy ===
/**
 * `run_blender_script` and the sentinel tests applied to its result.
 * Blender is an oracle: for an executable, a job and a timeout it says how
 * the process ended and what, if anything, it left at the job's output path.
 * The generated script text is collaborator code and is not modelled; the
 * tool writes it to a temporary `.py` file before the run.
 */
module Process {
  import opened Wrappers
  import opened ByteStrings
  import opened Files

  /** How one Blender process ended. `LaunchFailed` carries `str(e)` of the
      exception raised while starting or waiting for it. */
  datatype ProcessOutcome =
    | Exited(returncode: int, stdout: string, stderr: string)
    | TimedOut
    | LaunchFailed(error: string)

  /** The `(success, output)` pair the tool reads back. */
  datatype Captured = Captured(ok: bool, output: string)

  const TIMEOUT_MESSAGE: string := "Blender process timed out"

  /** The result mapping of `run_blender_script`. */
  function Capture(o: ProcessOutcome): (c: Captured)
    ensures c.ok <==> o.Exited? && o.returncode == 0
    ensures o.Exited? ==> o.stdout <= c.output && c.output[|o.stdout|..] == o.stderr
    ensures o.TimedOut? ==> c.output == TIMEOUT_MESSAGE
    ensures o.LaunchFailed? ==> c.output == o.error
  {
    match o
    case Exited(code, out, err) => Captured(code == 0, out + err)
    case TimedOut => Captured(false, TIMEOUT_MESSAGE)
    case LaunchFailed(e) => Captured(false, e)
  }

  /** A sentinel printed on either stream of an exited process is seen in the captured output. */
  lemma CaptureKeepsBothStreams(o: ProcessOutcome, sentinel: string)
    requires o.Exited?
    requires Contains(o.stdout, sentinel) || Contains(o.stderr, sentinel)
    ensures Contains(Capture(o).output, sentinel)
  {
    if Contains(o.stdout, sentinel) {
      ContainsInPrefix(o.stdout, o.stderr, sentinel);
    } else {
      ContainsInSuffix(o.stdout, o.stderr, sentinel);
    }
  }

  /** The scripts the tool runs: the verification of strategy 1 and strategies 2 to 4. */
  datatype Job =
    | VerifyOpen(file: Path)
    | OpenAndResave(input: Path, output: Path)
    | AppendAll(input: Path, output: Path)
    | CopyAllBlocks(input: Path, output: Path)

  /** The timeout in seconds each script is given. */
  function TimeoutOf(job: Job): nat
  {
    match job
    case VerifyOpen(_) => 60
    case OpenAndResave(_, _) => 180
    case AppendAll(_, _) => 300
    case CopyAllBlocks(_, _) => 300
  }

  /** The file a job's script saves to; the verification script only opens one. */
  function Target(job: Job): Option<Path>
  {
    if job.VerifyOpen? then None else Some(job.output)
  }

  /** One Blender run as the oracle reports it. */
  datatype Invocation = Invocation(outcome: ProcessOutcome, leaves: Option<Bytes>)

  /** The external application: the script the tool generates for each job,
      and what happens when an executable runs it under a timeout. */
  datatype Collaborator = Collaborator(
    script: Job -> Bytes,
    run: (Path, Job, nat) -> Invocation)

  /** A finished run: what the tool read back, and the filesystem afterwards. */
  datatype ScriptRun = ScriptRun(captured: Captured, fs: FileSystem)

  /** `run_blender_script`: write the script to `scriptPath`, run it, map the
      outcome, and delete the script on every path. */
  function RunBlenderScript(fs: FileSystem, collab: Collaborator, exe: Path, job: Job, scriptPath: Path): (r: ScriptRun)
    ensures r.captured == Capture(collab.run(exe, job, TimeoutOf(job)).outcome)
    ensures scriptPath !in r.fs
    ensures forall p :: p != scriptPath && Some(p) != Target(job) ==> Kept(fs, r.fs, p)
    ensures Target(job).Some? && Target(job).value != scriptPath ==>
      match collab.run(exe, job, TimeoutOf(job)).leaves
      case None => Kept(fs, r.fs, Target(job).value)
      case Some(data) => Target(job).value in r.fs && r.fs[Target(job).value] == data
  {
    var staged := fs[scriptPath := collab.script(job)];
    var inv := collab.run(exe, job, TimeoutOf(job));
    var after :=
      if Target(job).Some? && inv.leaves.Some? then staged[Target(job).value := inv.leaves.value]
      else staged;
    ScriptRun(Capture(inv.outcome), Remove(after, scriptPath))
  }

  const REPAIR_SUCCESS: string := "REPAIR_SUCCESS"
  const RECOVERY_SUCCESS: string := "RECOVERY_SUCCESS"
  const VERIFY_SUCCESS: string := "VERIFY_SUCCESS"

  /** Strategies 2 to 4 succeed on a clean exit whose output carries their
      sentinel: `REPAIR_SUCCESS` for strategy 2, `RECOVERY_SUCCESS` for 3 and 4. */
  predicate ScriptSucceeded(c: Captured, sentinel: string)
  {
    c.ok && Contains(c.output, sentinel)
  }

  /** The verification of strategy 1 looks only for `VERIFY_SUCCESS`; the exit status is ignored. */
  predicate VerifySucceeded(c: Captured)
  {
    Contains(c.output, VERIFY_SUCCESS)
  }

  /** A clean exit alone is not enough for any strategy: the sentinel must appear. */
  lemma ExitCodeNotSufficient(out: string, err: string, sentinel: string)
    requires !Contains(out + err, sentinel)
    ensures Capture(Exited(0, out, err)).ok
    ensures !ScriptSucceeded(Capture(Exited(0, out, err)), sentinel)
  {
  }

  /** A non-zero exit, a timeout or a launch failure fails strategies 2 to 4,
      whatever the output says. */
  lemma OnlyCleanExitSucceeds(o: ProcessOutcome, sentinel: string)
    requires !(o.Exited? && o.returncode == 0)
    ensures !ScriptSucceeded(Capture(o), sentinel)
  {
  }

  /** The verification accepts a failing process whose output carries the sentinel. */
  lemma VerifyIgnoresExitStatus(code: int, out: string, err: string)
    requires Contains(out, VERIFY_SUCCESS) || Contains(err, VERIFY_SUCCESS)
    ensures VerifySucceeded(Capture(Exited(code, out, err)))
  {
    CaptureKeepsBothStreams(Exited(code, out, err), VERIFY_SUCCESS);
  }

  /** A timed-out verification never confirms a repair. */
  lemma TimeoutNeverVerifies()
    ensures !VerifySucceeded(Capture(TimedOut))
  {
    NotAtAnyOffset(TIMEOUT_MESSAGE, VERIFY_SUCCESS);
  }

  /** No window of `text` equals `needle` because the needle's first character
      never appears early enough: a cheap witness for `!Contains`. */
  lemma NotAtAnyOffset(text: string, needle: string)
    requires 0 < |needle|
    requires forall i :: 0 <= i <= |text| - |needle| ==> text[i] != needle[0]
    ensures !Contains(text, needle)
  {
    forall i | 0 <= i <= |text| - |needle|
      ensures !OccursAt(text, needle, i)
    {
      assert text[i..i + |needle|][0] == text[i];
    }
  }
}

=== FILE: repair.dfy ===
/**
 * `repair_blend_file`: the repair session. It rejects a missing or
 * unrecognised input, backs the input up once, derives the default output
 * path, and runs the strategies in order until one is accepted.
 */
module Repair {
  import opened Wrappers
  import opened Files
  import opened Sniffer
  import opened Codec
  import opened Process
  import opened Strategies

  /** One strategy run: its own verdict, and whether the session accepted it
      (for strategy 1 with Blender present, only after verification). */
  datatype Attempt = Attempt(strategy: Strategy, succeeded: bool, accepted: bool)

  /** How a session ends. `verified` tells whether a Blender process vouched for the result. */
  datatype Ending =
    | NotFound
    | NotBlendFile
    | Repaired(winner: Strategy, verified: bool)
    | NeedsBlender
    | Exhausted

  /** The outcome of a session: how it ended, the strategies it ran, and the filesystem afterwards. */
  datatype Session = Session(ending: Ending, attempts: seq<Attempt>, fs: FileSystem)

  /** Everything outside the tool: the codec libraries, Blender, what
      `find_blender` would find, and the names the temporary files get. */
  datatype Env = Env(
    backend: Backend,
    collaborator: Collaborator,
    discovered: Option<Path>,
    scratchBlend: Path,
    scratchScript: Path)

  /** The tool's return value. */
  predicate Succeeded(s: Session)
  {
    s.ending.Repaired?
  }

  /** `str.rfind`: the last index of `c` in `s`, or -1. */
  function RFind(s: string, c: char): (i: int)
    ensures -1 <= i < |s|
    ensures 0 <= i ==> s[i] == c
    ensures forall j :: i < j < |s| ==> s[j] != c
    decreases |s|
  {
    if |s| == 0 then -1
    else if s[|s| - 1] == c then |s| - 1
    else RFind(s[..|s| - 1], c)
  }

  /** `os.path.splitext` on POSIX paths: the extension starts at the last dot
      of the last path component, unless that component is all dots before it. */
  function SplitExt(p: Path): (parts: (Path, Path))
    ensures parts.0 + parts.1 == p
    ensures parts.1 == "" || (parts.1[0] == '.' && forall k :: 0 <= k < |parts.1| ==> parts.1[k] != '/')
  {
    var sep := RFind(p, '/');
    var dot := RFind(p, '.');
    if sep < dot && exists k :: sep + 1 <= k < dot && p[k] != '.' then
      assert p[..dot] + p[dot..] == p;
      (p[..dot], p[dot..])
    else
      (p, "")
  }

  /** `splitext` splits off a final extension: a dot followed by neither dots
      nor slashes, after a last path component with some character other than a dot. */
  lemma SplitExtFindsExtension(base: Path, ext: Path, k: nat)
    requires 0 < |ext| && ext[0] == '.'
    requires forall j :: 0 < j < |ext| ==> ext[j] != '.' && ext[j] != '/'
    requires k < |base| && base[k] != '.' && base[k] != '/'
    requires forall j :: k < j < |base| ==> base[j] != '/'
    ensures SplitExt(base + ext) == (base, ext)
  {
    var p := base + ext;
    var dot := RFind(p, '.');
    assert p[|base|] == '.';
    assert forall j :: |base| < j < |p| ==> p[j] != '.' by {
      forall j | |base| < j < |p|
        ensures p[j] != '.'
      {
        assert p[j] == ext[j - |base|];
      }
    }
    assert forall j :: k <= j < |p| ==> p[j] != '/' by {
      forall j | k <= j < |p|
        ensures p[j] != '/'
      {
        if j < |base| {
          assert p[j] == base[j];
        } else {
          assert p[j] == ext[j - |base|];
        }
      }
    }
    assert p[k] == base[k];
    assert p[..dot] == base && p[dot..] == ext;
  }

  /** A last path component whose dots, if any, all lead it has no extension:
      `name` follows the last slash of `dir`, or starts the path when `dir` is empty. */
  lemma SplitExtWithoutExtension(dir: Path, dots: nat, name: Path)
    requires 0 < |dir| ==> dir[|dir| - 1] == '/'
    requires forall j :: 0 <= j < |name| ==> name[j] != '.' && name[j] != '/'
    ensures var p := dir + seq(dots, _ => '.') + name;
      SplitExt(p) == (p, "")
  {
    var leading: string := seq(dots, _ => '.');
    var p := dir + leading + name;
    var sep := RFind(p, '/');
    var dot := RFind(p, '.');
    if 0 < |dir| {
      assert p[|dir| - 1] == '/';
    }
    assert forall j :: |dir| <= j < |p| ==> p[j] != '/' by {
      forall j | |dir| <= j < |p|
        ensures p[j] != '/'
      {
        if j < |dir| + dots {
          assert p[j] == leading[j - |dir|];
        } else {
          assert p[j] == name[j - |dir| - dots];
        }
      }
    }
    assert sep == |dir| - 1;
    assert forall j :: |dir| + dots <= j < |p| ==> p[j] != '.' by {
      forall j | |dir| + dots <= j < |p|
        ensures p[j] != '.'
      {
        assert p[j] == name[j - |dir| - dots];
      }
    }
    forall k | sep + 1 <= k < dot
      ensures p[k] == '.'
    {
      assert p[k] == leading[k - |dir|];
    }
  }

  /** `splitext` output for the two shapes above, fed to the default output name. */
  lemma DefaultOutputShapes(base: Path, ext: Path, k: nat, dir: Path, dots: nat, name: Path)
    requires 0 < |ext| && ext[0] == '.'
    requires forall j :: 0 < j < |ext| ==> ext[j] != '.' && ext[j] != '/'
    requires k < |base| && base[k] != '.' && base[k] != '/'
    requires forall j :: k < j < |base| ==> base[j] != '/'
    requires 0 < |dir| ==> dir[|dir| - 1] == '/'
    requires forall j :: 0 <= j < |name| ==> name[j] != '.' && name[j] != '/'
    ensures DefaultOutput(base + ext) == base + "_repaired" + ext
    ensures var p := dir + seq(dots, _ => '.') + name;
      DefaultOutput(p) == p + "_repaired"
  {
    SplitExtFindsExtension(base, ext, k);
    SplitExtWithoutExtension(dir, dots, name);
  }

  /** The backup sibling of the input. */
  function BackupPath(input: Path): Path
  {
    input + ".backup"
  }

  /** The default output: `_repaired` inserted before the extension. */
  function DefaultOutput(input: Path): (out: Path)
    ensures exists base, ext :: base + ext == input && out == base + "_repaired" + ext
  {
    var (base, ext) := SplitExt(input);
    base + "_repaired" + ext
  }

  /** The output path the session writes to. */
  function OutputPath(input: Path, output: Option<Path>): Path
  {
    if output.Some? then output.value else DefaultOutput(input)
  }

  /** The default output differs from the input and from the backup: it is
      nine characters longer than the input, the backup seven. */
  lemma DefaultOutputIsFresh(input: Path)
    ensures DefaultOutput(input) != input
    ensures DefaultOutput(input) != BackupPath(input)
    ensures |DefaultOutput(input)| == |input| + 9
  {
    var (base, ext) := SplitExt(input);
    assert |DefaultOutput(input)| == |base| + 9 + |ext|;
  }

  /** The Blender the session uses: an explicit path wins, `find_blender`
      runs only without one, and an empty path counts as no Blender. */
  function ResolveBlender(explicit: Option<Path>, discovered: Option<Path>): (b: Option<Path>)
    ensures b.Some? ==> b.value != ""
    ensures explicit.Some? && explicit.value != "" ==> b == explicit
    ensures explicit.None? && discovered.Some? && discovered.value != "" ==> b == discovered
    ensures explicit == Some("") ==> b.None?
    ensures b.Some? ==> b == explicit || (explicit.None? && b == discovered)
  {
    var chosen := if explicit.None? then discovered else explicit;
    if chosen.Some? && chosen.value != "" then chosen else None
  }

  /** Copy the input to its backup unless a backup already exists. */
  function WithBackup(fs: FileSystem, input: Path): (r: FileSystem)
    requires input in fs
    ensures BackupPath(input) in r
    ensures BackupPath(input) in fs ==> r == fs
    ensures BackupPath(input) !in fs ==> r[BackupPath(input)] == fs[input]
    ensures forall p :: p != BackupPath(input) ==> Kept(fs, r, p)
  {
    if BackupPath(input) in fs then fs else fs[BackupPath(input) := fs[input]]
  }

  /** `attempts` ran the strategies from `from` onwards, one rank after the
      other, and the session moved on from each of them but the last. */
  predicate FollowsOrder(attempts: seq<Attempt>, from: Strategy)
  {
    && Rank(from) + |attempts| <= 5
    && (forall i :: 0 <= i < |attempts| ==> Rank(attempts[i].strategy) == Rank(from) + i)
    && (forall i :: 0 <= i < |attempts| - 1 ==> !attempts[i].accepted)
  }

  /** A rejected attempt followed by a run that starts at the next strategy. */
  lemma {:induction false} FollowsOrderCons(a: Attempt, rest: seq<Attempt>, next: Strategy)
    requires !a.accepted && Rank(next) == Rank(a.strategy) + 1
    requires FollowsOrder(rest, next)
    ensures FollowsOrder([a] + rest, a.strategy)
  {
    var all := [a] + rest;
    forall i | 1 <= i < |all|
      ensures all[i] == rest[i - 1]
    {
    }
  }

  /** The ending agrees with the attempts: the session succeeded exactly when
      its last attempt was accepted, and then names that attempt's strategy. */
  predicate EndsWithLastAttempt(s: Session)
  {
    && (s.ending.Repaired? <==> 0 < |s.attempts| && s.attempts[|s.attempts| - 1].accepted)
    && (s.ending.Repaired? ==> s.ending.winner == s.attempts[|s.attempts| - 1].strategy)
  }

  /** A session `rest` with the attempt `head` run before it. */
  function Handover(head: Attempt, rest: Session): Session
  {
    Session(rest.ending, [head] + rest.attempts, rest.fs)
  }

  /** Handing over after a rejected attempt keeps the ending and the last attempt. */
  lemma {:induction false} HandoverShape(head: Attempt, rest: Session)
    ensures var h := Handover(head, rest);
      && h.ending == rest.ending && h.fs == rest.fs
      && |h.attempts| == |rest.attempts| + 1 && h.attempts[0] == head
      && (forall i :: 1 <= i < |h.attempts| ==> h.attempts[i] == rest.attempts[i - 1])
      && (!head.accepted && 0 < |rest.attempts| && EndsWithLastAttempt(rest) ==> EndsWithLastAttempt(h))
  {
    var h := Handover(head, rest);
    if 0 < |rest.attempts| {
      assert h.attempts[|h.attempts| - 1] == rest.attempts[|rest.attempts| - 1];
    }
  }

  /** Every path other than `x` and `y` is kept from `before` to `after`. */
  ghost predicate KeptBut(before: FileSystem, after: FileSystem, x: Path, y: Path)
  {
    forall p :: p != x && p != y ==> Kept(before, after, p)
  }

  /** Two steps that each keep everything but `x` and `y` keep it together. */
  lemma {:induction false} KeptButChain(a: FileSystem, b: FileSystem, c: FileSystem, x: Path, y: Path)
    requires KeptBut(a, b, x, y) && KeptBut(b, c, x, y)
    ensures KeptBut(a, c, x, y)
  {
    forall p | p != x && p != y
      ensures Kept(a, c, p)
    {
      assert Kept(a, b, p) && Kept(b, c, p);
    }
  }

  /** Strategies 2 to 4, from `from` on: run each in turn and stop at the first success. */
  function BlenderPhase(fs: FileSystem, env: Env, exe: Path, input: Path, output: Path, from: Strategy): (s: Session)
    requires from != CompressionRepair
    ensures s.ending.Repaired? || s.ending.Exhausted?
    ensures s.ending.Repaired? ==> s.ending.verified
    ensures 0 < |s.attempts|
    decreases 4 - Rank(from)
  {
    var e := RunBlenderStrategy(fs, env.collaborator, exe, from, input, output, env.scratchScript);
    var first := Attempt(from, e.ok, e.ok);
    if e.ok then Session(Repaired(from, true), [first], e.fs)
    else
      match Successor(from)
      case None => Session(Exhausted, [first], e.fs)
      case Some(next) =>
        Handover(first, BlenderPhase(e.fs, env, exe, input, output, next))
  }

  /** Strategies 2 to 4 run in rank order from `from`, up to the first success. */
  lemma {:induction false} BlenderPhaseOrder(fs: FileSystem, env: Env, exe: Path, input: Path, output: Path, from: Strategy)
    requires from != CompressionRepair
    ensures FollowsOrder(BlenderPhase(fs, env, exe, input, output, from).attempts, from)
    decreases 4 - Rank(from)
  {
    var e := RunBlenderStrategy(fs, env.collaborator, exe, from, input, output, env.scratchScript);
    if !e.ok && Successor(from).Some? {
      var next := Successor(from).value;
      var first := Attempt(from, false, false);
      var rest := BlenderPhase(e.fs, env, exe, input, output, next);
      assert BlenderPhase(fs, env, exe, input, output, from) == Handover(first, rest);
      HandoverShape(first, rest);
      BlenderPhaseOrder(e.fs, env, exe, input, output, next);
      FollowsOrderCons(first, rest.attempts, next);
    }
  }

  /** Each attempt of strategies 2 to 4 is accepted on its own verdict. */
  lemma {:induction false} BlenderPhaseAccepts(fs: FileSystem, env: Env, exe: Path, input: Path, output: Path, from: Strategy)
    requires from != CompressionRepair
    ensures var s := BlenderPhase(fs, env, exe, input, output, from);
      forall i :: 0 <= i < |s.attempts| ==> s.attempts[i].accepted == s.attempts[i].succeeded
    decreases 4 - Rank(from)
  {
    var e := RunBlenderStrategy(fs, env.collaborator, exe, from, input, output, env.scratchScript);
    var s := BlenderPhase(fs, env, exe, input, output, from);
    if !e.ok && Successor(from).Some? {
      var next := Successor(from).value;
      var first := Attempt(from, false, false);
      var rest := BlenderPhase(e.fs, env, exe, input, output, next);
      assert s == Handover(first, rest);
      HandoverShape(first, rest);
      BlenderPhaseAccepts(e.fs, env, exe, input, output, next);
      forall i | 1 <= i < |s.attempts|
        ensures s.attempts[i].accepted == s.attempts[i].succeeded
      {
        assert s.attempts[i] == rest.attempts[i - 1];
      }
    } else {
      assert s.attempts == [Attempt(from, e.ok, e.ok)];
    }
  }

  /** The phase succeeds exactly when its last attempt does, and it is
      exhausted only after strategy 4 has run. */
  lemma {:induction false} BlenderPhaseEnding(fs: FileSystem, env: Env, exe: Path, input: Path, output: Path, from: Strategy)
    requires from != CompressionRepair
    ensures var s := BlenderPhase(fs, env, exe, input, output, from);
      && EndsWithLastAttempt(s)
      && (s.ending.Exhausted? ==> Rank(from) + |s.attempts| == 5)
    decreases 4 - Rank(from)
  {
    var e := RunBlenderStrategy(fs, env.collaborator, exe, from, input, output, env.scratchScript);
    if !e.ok && Successor(from).Some? {
      var next := Successor(from).value;
      var first := Attempt(from, false, false);
      var rest := BlenderPhase(e.fs, env, exe, input, output, next);
      assert BlenderPhase(fs, env, exe, input, output, from) == Handover(first, rest);
      HandoverShape(first, rest);
      BlenderPhaseEnding(e.fs, env, exe, input, output, next);
    }
  }

  /** Strategies 2 to 4 touch only the output and the script path, and leave
      no script behind. */
  lemma {:induction false} BlenderPhaseFootprint(fs: FileSystem, env: Env, exe: Path, input: Path, output: Path, from: Strategy)
    requires from != CompressionRepair
    ensures var s := BlenderPhase(fs, env, exe, input, output, from);
      && env.scratchScript !in s.fs
      && KeptBut(fs, s.fs, env.scratchScript, output)
    decreases 4 - Rank(from)
  {
    var e := RunBlenderStrategy(fs, env.collaborator, exe, from, input, output, env.scratchScript);
    if !e.ok && Successor(from).Some? {
      var next := Successor(from).value;
      BlenderPhaseFootprint(e.fs, env, exe, input, output, next);
      KeptButChain(fs, e.fs, BlenderPhase(e.fs, env, exe, input, output, next).fs, env.scratchScript, output);
    }
  }

  /** Each attempt of strategies 2 to 4 succeeds exactly on Blender's verdict
      for that strategy. */
  lemma {:induction false} BlenderPhaseVerdicts(fs: FileSystem, env: Env, exe: Path, input: Path, output: Path, from: Strategy)
    requires from != CompressionRepair
    ensures var s := BlenderPhase(fs, env, exe, input, output, from);
      forall i :: 0 <= i < |s.attempts| ==>
        && s.attempts[i].strategy != CompressionRepair
        && (s.attempts[i].succeeded <==> BlenderVerdict(env.collaborator, exe, s.attempts[i].strategy, input, output))
    decreases 4 - Rank(from)
  {
    var e := RunBlenderStrategy(fs, env.collaborator, exe, from, input, output, env.scratchScript);
    var s := BlenderPhase(fs, env, exe, input, output, from);
    assert e.ok == BlenderVerdict(env.collaborator, exe, from, input, output);
    if !e.ok && Successor(from).Some? {
      var next := Successor(from).value;
      var first := Attempt(from, false, false);
      var rest := BlenderPhase(e.fs, env, exe, input, output, next);
      assert s == Handover(first, rest);
      HandoverShape(first, rest);
      BlenderPhaseVerdicts(e.fs, env, exe, input, output, next);
      forall i | 1 <= i < |s.attempts|
        ensures s.attempts[i].strategy != CompressionRepair
        ensures s.attempts[i].succeeded <==> BlenderVerdict(env.collaborator, exe, s.attempts[i].strategy, input, output)
      {
        assert s.attempts[i] == rest.attempts[i - 1];
      }
    } else {
      assert s.attempts == [Attempt(from, e.ok, e.ok)];
    }
  }

  /** A repair by strategies 2 to 4 was won on Blender's verdict, and the
      output holds what the winning run saved there. */
  lemma {:induction false} BlenderPhaseWinner(fs: FileSystem, env: Env, exe: Path, input: Path, output: Path, from: Strategy)
    requires from != CompressionRepair
    requires output != env.scratchScript
    ensures var s := BlenderPhase(fs, env, exe, input, output, from);
      s.ending.Repaired? ==>
        && s.ending.winner != CompressionRepair
        && BlenderVerdict(env.collaborator, exe, s.ending.winner, input, output)
        && var job := JobOf(s.ending.winner, input, output);
           var left := env.collaborator.run(exe, job, TimeoutOf(job)).leaves;
           left.Some? ==> output in s.fs && s.fs[output] == left.value
    decreases 4 - Rank(from)
  {
    var e := RunBlenderStrategy(fs, env.collaborator, exe, from, input, output, env.scratchScript);
    assert e.ok == BlenderVerdict(env.collaborator, exe, from, input, output);
    BlenderStrategyOutput(fs, env.collaborator, exe, from, input, output, env.scratchScript);
    if !e.ok && Successor(from).Some? {
      var next := Successor(from).value;
      var first := Attempt(from, false, false);
      var rest := BlenderPhase(e.fs, env, exe, input, output, next);
      assert BlenderPhase(fs, env, exe, input, output, from) == Handover(first, rest);
      HandoverShape(first, rest);
      BlenderPhaseWinner(e.fs, env, exe, input, output, next);
    }
  }

  /** What follows strategy 1, given its effect `first`: its verification
      when Blender is present, the cut-off without Blender, then strategies 2 to 4. */
  function AfterCompression(first: Effect, env: Env, blender: Option<Path>, input: Path, output: Path): (s: Session)
    ensures s.ending.Repaired? || s.ending.NeedsBlender? || s.ending.Exhausted?
    ensures blender.None? <==> (s.ending.NeedsBlender? || s.ending == Repaired(CompressionRepair, false))
  {
    if blender.None? then
      if first.ok then Session(Repaired(CompressionRepair, false), [Attempt(CompressionRepair, true, true)], first.fs)
      else Session(NeedsBlender, [Attempt(CompressionRepair, false, false)], first.fs)
    else
      var exe := blender.value;
      var check := VerifyRepaired(first.fs, env.collaborator, exe, output, env.scratchScript);
      if first.ok && check.ok then
        Session(Repaired(CompressionRepair, true), [Attempt(CompressionRepair, true, true)], check.fs)
      else
        var afterFirst := if first.ok then check.fs else first.fs;
        Handover(Attempt(CompressionRepair, first.ok, false), BlenderPhase(afterFirst, env, exe, input, output, BackgroundResave))
  }

  /** The strategies run in rank order, strategy 1 first. */
  lemma AfterCompressionOrder(first: Effect, env: Env, blender: Option<Path>, input: Path, output: Path)
    ensures var s := AfterCompression(first, env, blender, input, output);
      0 < |s.attempts| && FollowsOrder(s.attempts, CompressionRepair)
  {    if blender.Some? {
      var exe := blender.value;
      var check := VerifyRepaired(first.fs, env.collaborator, exe, output, env.scratchScript);
      if !(first.ok && check.ok) {
        var afterFirst := if first.ok then check.fs else first.fs;
        var head := Attempt(CompressionRepair, first.ok, false);
        var rest := BlenderPhase(afterFirst, env, exe, input, output, BackgroundResave);
        assert AfterCompression(first, env, blender, input, output) == Handover(head, rest);
        HandoverShape(head, rest);
        BlenderPhaseOrder(afterFirst, env, exe, input, output, BackgroundResave);
        FollowsOrderCons(head, rest.attempts, BackgroundResave);
      }
    }
  }

  /** The session ends at its first accepted attempt, which is its last;
      running out of strategies means all four ran. */
  lemma AfterCompressionEnding(first: Effect, env: Env, blender: Option<Path>, input: Path, output: Path)
    ensures var s := AfterCompression(first, env, blender, input, output);
      && EndsWithLastAttempt(s)
      && (s.ending.Exhausted? ==> |s.attempts| == 4)
  {    if blender.Some? {
      var exe := blender.value;
      var check := VerifyRepaired(first.fs, env.collaborator, exe, output, env.scratchScript);
      if !(first.ok && check.ok) {
        var afterFirst := if first.ok then check.fs else first.fs;
        var head := Attempt(CompressionRepair, first.ok, false);
        var rest := BlenderPhase(afterFirst, env, exe, input, output, BackgroundResave);
        assert AfterCompression(first, env, blender, input, output) == Handover(head, rest);
        HandoverShape(head, rest);
        BlenderPhaseEnding(afterFirst, env, exe, input, output, BackgroundResave);
      }
    }
  }

  /** Strategy 1 always runs first. Without Blender it is the only one, and
      its verdict stands; with Blender its success counts only once
      verified, and otherwise another strategy follows. */
  lemma AfterCompressionFirst(first: Effect, env: Env, blender: Option<Path>, input: Path, output: Path)
    ensures var s := AfterCompression(first, env, blender, input, output);
      && 0 < |s.attempts|
      && s.attempts[0].strategy == CompressionRepair
      && s.attempts[0].succeeded == first.ok
      && (blender.None? ==> |s.attempts| == 1 && s.attempts[0].accepted == first.ok)
      && (blender.Some? ==>
            s.attempts[0].accepted
              == (first.ok && VerifyRepaired(first.fs, env.collaborator, blender.value, output, env.scratchScript).ok))
      && (blender.Some? && !s.attempts[0].accepted ==> 1 < |s.attempts|)
  {    if blender.Some? {
      var exe := blender.value;
      var check := VerifyRepaired(first.fs, env.collaborator, exe, output, env.scratchScript);
      if !(first.ok && check.ok) {
        var afterFirst := if first.ok then check.fs else first.fs;
        var head := Attempt(CompressionRepair, first.ok, false);
        var rest := BlenderPhase(afterFirst, env, exe, input, output, BackgroundResave);
        assert AfterCompression(first, env, blender, input, output) == Handover(head, rest);
        HandoverShape(head, rest);
      }
    }
  }

  /** After strategy 1, only the output and the script path change, and no script is left behind. */
  lemma AfterCompressionFootprint(first: Effect, env: Env, blender: Option<Path>, input: Path, output: Path)
    ensures var s := AfterCompression(first, env, blender, input, output);
      && (env.scratchScript !in first.fs ==> env.scratchScript !in s.fs)
      && KeptBut(first.fs, s.fs, env.scratchScript, output)
  {
    if blender.Some? {
      var exe := blender.value;
      var check := VerifyRepaired(first.fs, env.collaborator, exe, output, env.scratchScript);
      var afterFirst := if first.ok then check.fs else first.fs;
      assert KeptBut(first.fs, afterFirst, env.scratchScript, output);
      if !(first.ok && check.ok) {
        BlenderPhaseFootprint(afterFirst, env, exe, input, output, BackgroundResave);
        KeptButChain(first.fs, afterFirst, BlenderPhase(afterFirst, env, exe, input, output, BackgroundResave).fs, env.scratchScript, output);
      }
    }
  }

  /** With Blender, every attempt after strategy 1 succeeds exactly on
      Blender's verdict for its strategy, and a repair won by strategies 2 to
      4 leaves at the output what the winning run saved there. */
  lemma AfterCompressionVerdicts(first: Effect, env: Env, blender: Option<Path>, input: Path, output: Path)
    requires blender.Some? && output != env.scratchScript
    ensures var s := AfterCompression(first, env, blender, input, output);
      && (forall i :: 1 <= i < |s.attempts| ==>
            && s.attempts[i].strategy != CompressionRepair
            && (s.attempts[i].succeeded <==> BlenderVerdict(env.collaborator, blender.value, s.attempts[i].strategy, input, output)))
      && (s.ending.Repaired? && s.ending.winner != CompressionRepair ==>
            && BlenderVerdict(env.collaborator, blender.value, s.ending.winner, input, output)
            && var job := JobOf(s.ending.winner, input, output);
               var left := env.collaborator.run(blender.value, job, TimeoutOf(job)).leaves;
               left.Some? ==> output in s.fs && s.fs[output] == left.value)
  {
    var exe := blender.value;
    var check := VerifyRepaired(first.fs, env.collaborator, exe, output, env.scratchScript);
    if !(first.ok && check.ok) {
      var afterFirst := if first.ok then check.fs else first.fs;
      var head := Attempt(CompressionRepair, first.ok, false);
      var rest := BlenderPhase(afterFirst, env, exe, input, output, BackgroundResave);
      assert AfterCompression(first, env, blender, input, output) == Handover(head, rest);
      HandoverShape(head, rest);
      BlenderPhaseVerdicts(afterFirst, env, exe, input, output, BackgroundResave);
      BlenderPhaseWinner(afterFirst, env, exe, input, output, BackgroundResave);
    }
  }

  /** When strategy 1 wins, it succeeded, and nothing after it touched the
      output: the verification run only opens the file. */
  lemma CompressionWinnerKeepsOutput(first: Effect, env: Env, blender: Option<Path>, input: Path, output: Path)
    requires output != env.scratchScript
    ensures var s := AfterCompression(first, env, blender, input, output);
      s.ending.Repaired? && s.ending.winner == CompressionRepair ==> first.ok && Kept(first.fs, s.fs, output)
  {
    if blender.Some? {
      var exe := blender.value;
      var check := VerifyRepaired(first.fs, env.collaborator, exe, output, env.scratchScript);
      if !(first.ok && check.ok) {
        var afterFirst := if first.ok then check.fs else first.fs;
        var rest := BlenderPhase(afterFirst, env, exe, input, output, BackgroundResave);
        assert AfterCompression(first, env, blender, input, output).ending == rest.ending;
        BlenderPhaseWinner(afterFirst, env, exe, input, output, BackgroundResave);
      }
    }
  }

  /** `repair_blend_file`. `blender` is the `blender_path` argument; `output`
      the optional output path. */
  function RepairBlendFile(fs: FileSystem, input: Path, output: Option<Path>, blender: Option<Path>, env: Env): (s: Session)
    ensures s.ending == NotFound <==> input !in fs
    ensures s.ending == NotBlendFile <==> input in fs && !IsBlendFile(Some(fs[input]))
    ensures s.ending.NotFound? || s.ending.NotBlendFile? ==> s.attempts == [] && s.fs == fs
  {
    if input !in fs then Session(NotFound, [], fs)
    else if !IsBlendFile(Some(fs[input])) then Session(NotBlendFile, [], fs)
    else
      var out := OutputPath(input, output);
      AfterCompression(RepairCompression(WithBackup(fs, input), env.backend, input, out, env.scratchBlend),
                       env, ResolveBlender(blender, env.discovered), input, out)
  }

  /** The session's attempts follow the fixed order, and it succeeds exactly
      when one of them was accepted, which is then the last one run. */
  lemma SessionOrder(fs: FileSystem, input: Path, output: Option<Path>, blender: Option<Path>, env: Env)
    ensures var s := RepairBlendFile(fs, input, output, blender, env);
      && FollowsOrder(s.attempts, CompressionRepair)
      && EndsWithLastAttempt(s)
      && (Succeeded(s) <==> exists i :: 0 <= i < |s.attempts| && s.attempts[i].accepted)
      && (s.ending.Exhausted? ==> |s.attempts| == 4)
  {
    var s := RepairBlendFile(fs, input, output, blender, env);
    if input in fs && IsBlendFile(Some(fs[input])) {
      var out := OutputPath(input, output);
      var first := RepairCompression(WithBackup(fs, input), env.backend, input, out, env.scratchBlend);
      AfterCompressionOrder(first, env, ResolveBlender(blender, env.discovered), input, out);
      AfterCompressionEnding(first, env, ResolveBlender(blender, env.discovered), input, out);
      if i :| 0 <= i < |s.attempts| && s.attempts[i].accepted {
        assert i == |s.attempts| - 1;
      }
    }
  }

  /** Without a usable Blender the session runs strategy 1 alone: its
      success is the result, unverified, and its failure ends the session. */
  lemma WithoutBlenderOnlyCompression(fs: FileSystem, input: Path, output: Option<Path>, blender: Option<Path>, env: Env)
    requires input in fs && IsBlendFile(Some(fs[input]))
    requires ResolveBlender(blender, env.discovered).None?
    ensures var s := RepairBlendFile(fs, input, output, blender, env);
      var ok := RepairCompression(WithBackup(fs, input), env.backend, input, OutputPath(input, output), env.scratchBlend).ok;
      && s.attempts == [Attempt(CompressionRepair, ok, ok)]
      && s.ending == (if ok then Repaired(CompressionRepair, false) else NeedsBlender)
  {
  }

  /** With Blender, a strategy-1 result is accepted only if the verification
      run confirms it; otherwise strategy 2 runs next. */
  lemma WithBlenderCompressionIsVerified(fs: FileSystem, input: Path, output: Option<Path>, blender: Option<Path>, env: Env)
    requires input in fs && IsBlendFile(Some(fs[input]))
    requires ResolveBlender(blender, env.discovered).Some?
    ensures var s := RepairBlendFile(fs, input, output, blender, env);
      var out := OutputPath(input, output);
      var first := RepairCompression(WithBackup(fs, input), env.backend, input, out, env.scratchBlend);
      var exe := ResolveBlender(blender, env.discovered).value;
      && 0 < |s.attempts|
      && s.attempts[0] == Attempt(CompressionRepair, first.ok, first.ok && VerifyRepaired(first.fs, env.collaborator, exe, out, env.scratchScript).ok)
      && (!s.attempts[0].accepted ==> 1 < |s.attempts| && s.attempts[1].strategy == BackgroundResave)
      && (s.ending.Repaired? ==> s.ending.verified)
  {
    var out := OutputPath(input, output);
    var first := RepairCompression(WithBackup(fs, input), env.backend, input, out, env.scratchBlend);
    var resolved := ResolveBlender(blender, env.discovered);
    AfterCompressionOrder(first, env, resolved, input, out);
    AfterCompressionFirst(first, env, resolved, input, out);
    var s := AfterCompression(first, env, resolved, input, out);
    if 1 < |s.attempts| {
      assert Rank(s.attempts[1].strategy) == 2;
    }
    if s.ending.Repaired? && s.ending.winner == CompressionRepair {
      assert s.ending != Repaired(CompressionRepair, false);
    }
  }

  /** With Blender, the session's verdict on strategies 2 to 4 is Blender's:
      each of those attempts succeeds exactly on a clean exit with its
      sentinel, and a repair they win leaves what Blender saved at the output. */
  lemma SessionVerdicts(fs: FileSystem, input: Path, output: Option<Path>, blender: Option<Path>, env: Env)
    requires ResolveBlender(blender, env.discovered).Some?
    requires OutputPath(input, output) != env.scratchScript
    ensures var s := RepairBlendFile(fs, input, output, blender, env);
      var exe := ResolveBlender(blender, env.discovered).value;
      var out := OutputPath(input, output);
      && (forall i :: 1 <= i < |s.attempts| ==>
            && s.attempts[i].strategy != CompressionRepair
            && (s.attempts[i].succeeded <==> BlenderVerdict(env.collaborator, exe, s.attempts[i].strategy, input, out)))
      && (s.ending.Repaired? && s.ending.winner != CompressionRepair ==>
            && BlenderVerdict(env.collaborator, exe, s.ending.winner, input, out)
            && var job := JobOf(s.ending.winner, input, out);
               var left := env.collaborator.run(exe, job, TimeoutOf(job)).leaves;
               left.Some? ==> out in s.fs && s.fs[out] == left.value)
  {
    if input in fs && IsBlendFile(Some(fs[input])) {
      var out := OutputPath(input, output);
      var first := RepairCompression(WithBackup(fs, input), env.backend, input, out, env.scratchBlend);
      var resolved := ResolveBlender(blender, env.discovered);
      assert RepairBlendFile(fs, input, output, blender, env) == AfterCompression(first, env, resolved, input, out);
      AfterCompressionVerdicts(first, env, resolved, input, out);
    }
  }

  /** A session won by strategy 1 leaves at the output exactly what strategy 1
      wrote there. */
  lemma SessionCompressionWinner(fs: FileSystem, input: Path, output: Option<Path>, blender: Option<Path>, env: Env)
    requires OutputPath(input, output) != env.scratchScript
    ensures var s := RepairBlendFile(fs, input, output, blender, env);
      var out := OutputPath(input, output);
      s.ending.Repaired? && s.ending.winner == CompressionRepair ==>
        && input in fs
        && var first := RepairCompression(WithBackup(fs, input), env.backend, input, out, env.scratchBlend);
           first.ok && Kept(first.fs, s.fs, out)
  {
    if input in fs && IsBlendFile(Some(fs[input])) {
      var out := OutputPath(input, output);
      var first := RepairCompression(WithBackup(fs, input), env.backend, input, out, env.scratchBlend);
      var resolved := ResolveBlender(blender, env.discovered);
      assert RepairBlendFile(fs, input, output, blender, env) == AfterCompression(first, env, resolved, input, out);
      CompressionWinnerKeepsOutput(first, env, resolved, input, out);
    }
  }

  /** The temporary paths are fresh: absent, and distinct from the output and
      the backup (what `mkstemp` guarantees). */
  predicate FreshScratch(fs: FileSystem, input: Path, output: Option<Path>, env: Env)
  {
    var out := OutputPath(input, output);
    var backup := BackupPath(input);
    && env.scratchBlend !in fs && env.scratchScript !in fs
    && env.scratchBlend != out && env.scratchScript != out
    && env.scratchBlend != backup && env.scratchScript != backup
  }

  /** The session leaves no temporary file behind and changes nothing but the
      output and the backup. */
  lemma SessionFootprint(fs: FileSystem, input: Path, output: Option<Path>, blender: Option<Path>, env: Env)
    requires FreshScratch(fs, input, output, env)
    ensures var s := RepairBlendFile(fs, input, output, blender, env);
      && env.scratchBlend !in s.fs && env.scratchScript !in s.fs
      && KeptBut(fs, s.fs, OutputPath(input, output), BackupPath(input))
  {
    if input in fs && IsBlendFile(Some(fs[input])) {
      var out := OutputPath(input, output);
      var backup := BackupPath(input);
      var backedUp := WithBackup(fs, input);
      var first := RepairCompression(backedUp, env.backend, input, out, env.scratchBlend);
      var resolved := ResolveBlender(blender, env.discovered);
      AfterCompressionFootprint(first, env, resolved, input, out);
      var s := AfterCompression(first, env, resolved, input, out);
      assert Kept(backedUp, first.fs, env.scratchScript);
      forall p | p != out && p != backup
        ensures Kept(fs, s.fs, p)
      {
        if p == env.scratchScript {
          assert p !in fs && p !in s.fs;
        } else {
          assert Kept(fs, backedUp, p) && Kept(backedUp, first.fs, p) && Kept(first.fs, s.fs, p);
        }
      }
      if env.scratchBlend != env.scratchScript {
        assert Kept(first.fs, s.fs, env.scratchBlend);
      }
    }
  }

  /** The input is never modified, unless it is itself the output. */
  lemma InputUntouched(fs: FileSystem, input: Path, output: Option<Path>, blender: Option<Path>, env: Env)
    requires FreshScratch(fs, input, output, env)
    requires OutputPath(input, output) != input
    ensures Kept(fs, RepairBlendFile(fs, input, output, blender, env).fs, input)
  {
    SessionFootprint(fs, input, output, blender, env);
    assert |BackupPath(input)| == |input| + 7;
  }

  /** The backup: written from the input when missing, never overwritten when
      present, and in both cases still there when the session ends. */
  lemma BackupTakenOnce(fs: FileSystem, input: Path, output: Option<Path>, blender: Option<Path>, env: Env)
    requires input in fs && IsBlendFile(Some(fs[input]))
    requires FreshScratch(fs, input, output, env)
    requires OutputPath(input, output) != BackupPath(input)
    ensures var s := RepairBlendFile(fs, input, output, blender, env);
      && BackupPath(input) in s.fs
      && s.fs[BackupPath(input)] == (if BackupPath(input) in fs then fs[BackupPath(input)] else fs[input])
  {
    var out := OutputPath(input, output);
    var backup := BackupPath(input);
    var backedUp := WithBackup(fs, input);
    var first := RepairCompression(backedUp, env.backend, input, out, env.scratchBlend);
    var resolved := ResolveBlender(blender, env.discovered);
    AfterCompressionFootprint(first, env, resolved, input, out);
    var s := AfterCompression(first, env, resolved, input, out);
    assert RepairBlendFile(fs, input, output, blender, env) == s;
    assert Kept(backedUp, first.fs, backup) && Kept(first.fs, s.fs, backup);
  }

  /** Running the tool again on the same input keeps the first run's backup.
      Both runs draw temporary names that are fresh before the first one. */
  lemma RerunKeepsBackup(fs: FileSystem, input: Path, output: Option<Path>, blender: Option<Path>, env: Env, env2: Env)
    requires input in fs && IsBlendFile(Some(fs[input]))
    requires FreshScratch(fs, input, output, env)
    requires OutputPath(input, output) != BackupPath(input)
    requires FreshScratch(fs, input, output, env2)
    ensures var first := RepairBlendFile(fs, input, output, blender, env);
      var second := RepairBlendFile(first.fs, input, output, blender, env2);
      && BackupPath(input) in first.fs
      && BackupPath(input) in second.fs
      && second.fs[BackupPath(input)] == first.fs[BackupPath(input)]
  {
    var first := RepairBlendFile(fs, input, output, blender, env);
    BackupTakenOnce(fs, input, output, blender, env);
    SessionFootprint(fs, input, output, blender, env);
    assert Kept(fs, first.fs, env2.scratchBlend) || env2.scratchBlend in {env.scratchBlend, env.scratchScript};
    assert Kept(fs, first.fs, env2.scratchScript) || env2.scratchScript in {env.scratchBlend, env.scratchScript};
    assert FreshScratch(first.fs, input, output, env2);
    if input in first.fs && IsBlendFile(Some(first.fs[input])) {
      BackupTakenOnce(first.fs, input, output, blender, env2);
    }
  }

  /** The tool never checks that the output differs from the backup. Given
      `<input>.backup` as the output, a successful strategy 1 writes its
      recompressed result over the backup it has just taken. */
  lemma OutputAtBackupReplacesIt(fs: FileSystem, input: Path, blender: Option<Path>, env: Env)
    requires input in fs && IsBlendFile(Some(fs[input])) && CompressionType(Some(fs[input])) == Uncompressed
    requires ResolveBlender(blender, env.discovered).None?
    requires env.backend.encode(FreshCodec(env.backend), fs[input]).Done?
    ensures var s := RepairBlendFile(fs, input, Some(BackupPath(input)), blender, env);
      && s.ending == Repaired(CompressionRepair, false)
      && BackupPath(input) in s.fs
      && s.fs[BackupPath(input)] == env.backend.encode(FreshCodec(env.backend), fs[input]).data
  {
    var backedUp := WithBackup(fs, input);
    assert BackupPath(input) != input by {
      assert |BackupPath(input)| == |input| + 7;
    }
    assert backedUp[input] == fs[input];
    CompressionOfPlainInput(backedUp, env.backend, input, BackupPath(input), env.scratchBlend);
    var first := RepairCompression(backedUp, env.backend, input, BackupPath(input), env.scratchBlend);
    assert RepairBlendFile(fs, input, Some(BackupPath(input)), blender, env)
        == AfterCompression(first, env, None, input, BackupPath(input));
  }
}

=== FILE: sniffer.dfy ===
/**
 * Header sniffing: classifying a .blend file from its first bytes.
 * A file is given as `Some(contents)`, or `None` when reading it fails;
 * every classifier swallows that failure into a negative answer.
 */
module Sniffer {
  import opened Wrappers
  import opened ByteStrings

  /** The compression envelope of a .blend file. `Uncompressed` is the
      tool's `None` answer; `Unknown` is its `'unknown'` answer. */
  datatype Compression = Uncompressed | Gzip | Zstd | Unknown

  /** Gzip magic `1F 8B`. */
  const GZIP_MAGIC: Bytes := [0x1F, 0x8B]

  /** Zstandard frame magic `28 B5 2F FD`. */
  const ZSTD_MAGIC: Bytes := [0x28, 0xB5, 0x2F, 0xFD]

  /** ASCII `BLEN`, the part of the signature the compression check looks at. */
  const BLEN: Bytes := [0x42, 0x4C, 0x45, 0x4E]

  /** ASCII `BLENDER`, the signature that starts every uncompressed .blend file. */
  const BLENDER: Bytes := BLEN + [0x44, 0x45, 0x52]

  /** `get_compression_type`: reads 4 bytes, then tests gzip on the first two,
      zstd on all four and `BLEN` on all four, in that order. */
  function CompressionType(file: Option<Bytes>): (k: Compression)
    ensures k == Gzip <==> file.Some? && GZIP_MAGIC <= file.value
    ensures k == Zstd <==> file.Some? && ZSTD_MAGIC <= file.value
    ensures k == Uncompressed <==> file.Some? && BLEN <= file.value
    ensures file.Some? && |file.value| < 2 ==> k == Unknown
  {
    match file
    case None => Unknown
    case Some(data) =>
      var magic := Take(data, 4);
      if Take(magic, 2) == GZIP_MAGIC then
        assert data[0] == 0x1F != ZSTD_MAGIC[0] && data[0] != BLEN[0];
        Gzip
      else if magic == ZSTD_MAGIC then Zstd
      else if Take(magic, 4) == BLEN then Uncompressed
      else Unknown
  }

  /** `is_blend_file`: reads 12 bytes and accepts the `BLENDER` signature
      or either compression magic. */
  function IsBlendFile(file: Option<Bytes>): (b: bool)
    ensures b <==> file.Some? && (BLENDER <= file.value || GZIP_MAGIC <= file.value || ZSTD_MAGIC <= file.value)
    ensures b ==> CompressionType(file) != Unknown
  {
    match file
    case None => false
    case Some(data) =>
      var header := Take(data, 12);
      Take(header, 7) == BLENDER || Take(header, 2) == GZIP_MAGIC || Take(header, 4) == ZSTD_MAGIC
  }

  /** `is_compressed`: the kind is gzip or zstd. */
  function IsCompressed(file: Option<Bytes>): (b: bool)
    ensures b <==> file.Some? && (GZIP_MAGIC <= file.value || ZSTD_MAGIC <= file.value)
    ensures b ==> IsBlendFile(file)
  {
    CompressionType(file) in {Gzip, Zstd}
  }

  /** Bytes after the fourth never change the compression kind. */
  lemma CompressionTypeReadsFourBytes(head: Bytes, rest: Bytes)
    requires |head| >= 4
    ensures CompressionType(Some(head + rest)) == CompressionType(Some(head))
  {
    assert Take(head + rest, 4) == Take(head, 4);
  }

  /** The compression kind of a file is that of its first four bytes alone. */
  lemma CompressionTypeOfHeader(data: Bytes)
    ensures CompressionType(Some(data)) == CompressionType(Some(Take(data, 4)))
  {
  }

  /** A 2- or 3-byte file starting with the gzip magic is already classified as gzip. */
  lemma ShortGzipFile()
    ensures CompressionType(Some([0x1F, 0x8B])) == Gzip
    ensures CompressionType(Some([0x1F, 0x8B, 0x00])) == Gzip
    ensures IsBlendFile(Some([0x1F, 0x8B]))
    ensures IsBlendFile(Some([0x1F, 0x8B, 0x00]))
  {
    assert GZIP_MAGIC <= [0x1F, 0x8B, 0x00];
  }

  /** Acceptance implies a known kind, but not conversely: `BLEN` followed by
      anything but `DER` is classified as uncompressed and still rejected. */
  lemma BlenWithoutDerIsRejected()
    ensures CompressionType(Some(BLEN + [0x44, 0x45, 0x58])) == Uncompressed
    ensures !IsBlendFile(Some(BLEN + [0x44, 0x45, 0x58]))
  {
    var data := BLEN + [0x44, 0x45, 0x58];
    assert BLEN <= data;
    assert data[6] != BLENDER[6];
  }
}

=== FILE: strategies.dfy ===
/**
 * The four repair strategies and the verification step of strategy 1.
 * Strategy 1 works on bytes through the codec oracles; strategies 2 to 4
 * run a Blender script each and decide success from the exit status and a
 * sentinel in the output.
 */
module Strategies {
  import opened Wrappers
  import opened ByteStrings
  import opened Files
  import opened Sniffer
  import opened Codec
  import opened Process

  datatype Strategy = CompressionRepair | BackgroundResave | AppendRecovery | SelectiveRecovery

  /** The strategy's number in the tool's messages, which is also its place in the order they are tried. */
  function Rank(s: Strategy): (n: nat)
    ensures 1 <= n <= 4
    ensures n == 1 <==> s == CompressionRepair
    ensures n == 4 <==> s == SelectiveRecovery
  {
    match s
    case CompressionRepair => 1
    case BackgroundResave => 2
    case AppendRecovery => 3
    case SelectiveRecovery => 4
  }

  /** The strategy tried after `s`, if any. */
  function Successor(s: Strategy): (next: Option<Strategy>)
    ensures next.Some? <==> s != SelectiveRecovery
    ensures next.Some? ==> Rank(next.value) == Rank(s) + 1
  {
    match s
    case CompressionRepair => Some(BackgroundResave)
    case BackgroundResave => Some(AppendRecovery)
    case AppendRecovery => Some(SelectiveRecovery)
    case SelectiveRecovery => None
  }

  /** `repair_compression` (strategy 1). Uncompressed and unknown inputs are
      compressed, zstd preferred. Compressed inputs are decompressed into the
      fresh temporary file `tmp`, checked with `is_blend_file`, and
      recompressed with the detected codec; `tmp` is removed afterwards. */
  function RepairCompression(fs: FileSystem, backend: Backend, input: Path, output: Path, tmp: Path): (e: Effect)
    ensures CompressionType(Read(fs, input)) == Zstd && !backend.hasZstd ==> !e.ok && e.fs == fs
    ensures input !in fs ==> !e.ok && e.fs == fs
    ensures e.ok && output != tmp ==> output in e.fs
    ensures tmp !in fs && tmp != output ==> tmp !in e.fs && forall p :: p != output ==> Kept(fs, e.fs, p)
  {
    var kind := CompressionType(Read(fs, input));
    if kind == Zstd && !backend.hasZstd then Effect(false, fs)
    else if kind == Uncompressed || kind == Unknown then CompressBlend(fs, backend, input, output, Zstd)
    else Repacked(fs, backend, input, output, tmp, kind)
  }

  /** The compressed-input branch of strategy 1: unpack and repack through
      `tmp`, then delete `tmp` whatever happened. */
  function Repacked(fs: FileSystem, backend: Backend, input: Path, output: Path, tmp: Path, kind: Compression): (e: Effect)
    requires kind in {Gzip, Zstd}
    ensures e.ok && output != tmp ==> output in e.fs
    ensures tmp !in e.fs
    ensures forall p :: p != output && p != tmp ==> Kept(fs, e.fs, p)
  {
    var repacked := UnpackAndRepack(fs, backend, input, output, tmp, kind);
    Effect(repacked.ok, Remove(repacked.fs, tmp))
  }

  /** The compressed-input branch of strategy 1 up to the removal of `tmp`:
      create `tmp`, decompress into it, validate it, recompress it. */
  function UnpackAndRepack(fs: FileSystem, backend: Backend, input: Path, output: Path, tmp: Path, kind: Compression): (e: Effect)
    requires kind in {Gzip, Zstd}
    ensures e.ok ==> output in e.fs
    ensures forall p :: p != output && p != tmp ==> Kept(fs, e.fs, p)
  {
    var created := fs[tmp := []];
    var unpacked := DecompressBlend(created, backend, input, tmp, kind);
    if !unpacked.ok then unpacked
    else if !IsBlendFile(Read(unpacked.fs, tmp)) then Effect(false, unpacked.fs)
    else CompressBlend(unpacked.fs, backend, tmp, output, kind)
  }

  /** The codec strategy 1 compresses an uncompressed or unrecognised input with. */
  function FreshCodec(backend: Backend): Compression
  {
    if backend.hasZstd then Zstd else Gzip
  }

  /** Strategy 1 on an uncompressed or unrecognised input: it succeeds exactly
      when the preferred encoder finishes, and the output holds its result. */
  lemma CompressionOfPlainInput(fs: FileSystem, backend: Backend, input: Path, output: Path, tmp: Path)
    requires input in fs
    requires CompressionType(Some(fs[input])) in {Uncompressed, Unknown}
    ensures var e := RepairCompression(fs, backend, input, output, tmp);
      && (e.ok <==> backend.encode(FreshCodec(backend), fs[input]).Done?)
      && (e.ok ==> backend.encode(FreshCodec(backend), fs[input]) == Done(e.fs[output]))
  {
  }

  /** Strategy 1 on an uncompressed or unrecognised input whose encoder breaks
      off: it fails, and the output keeps the bytes written before the break. */
  lemma PlainInputResidue(fs: FileSystem, backend: Backend, input: Path, output: Path, tmp: Path)
    requires input in fs
    requires CompressionType(Some(fs[input])) in {Uncompressed, Unknown}
    requires backend.encode(FreshCodec(backend), fs[input]).Broken?
    ensures var e := RepairCompression(fs, backend, input, output, tmp);
      && !e.ok && output in e.fs
      && e.fs[output] == backend.encode(FreshCodec(backend), fs[input]).partial
  {
  }

  /** Strategy 1 on a gzip or zstd input it can decode: it succeeds exactly
      when decoding finishes with a valid .blend payload and re-encoding that
      payload with the same codec finishes; the output then holds the result. */
  lemma CompressionOfPackedInput(fs: FileSystem, backend: Backend, input: Path, output: Path, tmp: Path)
    requires input in fs && tmp !in fs && tmp != output
    requires CompressionType(Some(fs[input])) == Gzip || (CompressionType(Some(fs[input])) == Zstd && backend.hasZstd)
    ensures var kind := CompressionType(Some(fs[input]));
      var e := RepairCompression(fs, backend, input, output, tmp);
      && (e.ok <==>
           && backend.decode(kind, fs[input]).Done?
           && IsBlendFile(Some(backend.decode(kind, fs[input]).data))
           && backend.encode(kind, backend.decode(kind, fs[input]).data).Done?)
      && (e.ok ==> backend.encode(kind, backend.decode(kind, fs[input]).data) == Done(e.fs[output]))
  {
    var kind := CompressionType(Some(fs[input]));
    var created := fs[tmp := []];
    assert input != tmp;
    assert created[input] == fs[input];
    var unpacked := DecompressBlend(created, backend, input, tmp, kind);
    if unpacked.ok {
      assert Read(unpacked.fs, tmp) == Some(backend.decode(kind, fs[input]).data);
    }
    var repacked := UnpackAndRepack(fs, backend, input, output, tmp, kind);
    assert RepairCompression(fs, backend, input, output, tmp) == Effect(repacked.ok, Remove(repacked.fs, tmp));
  }

  /** A decoded payload that is not a .blend file fails strategy 1. */
  lemma InvalidPayloadFails(fs: FileSystem, backend: Backend, input: Path, output: Path, tmp: Path)
    requires input in fs && tmp !in fs && tmp != output
    requires CompressionType(Some(fs[input])) in {Gzip, Zstd}
    requires var d := backend.decode(CompressionType(Some(fs[input])), fs[input]);
      d.Done? && !IsBlendFile(Some(d.data))
    ensures !RepairCompression(fs, backend, input, output, tmp).ok
    ensures Kept(fs, RepairCompression(fs, backend, input, output, tmp).fs, output)
  {
    if CompressionType(Some(fs[input])) == Gzip || backend.hasZstd {
      CompressionOfPackedInput(fs, backend, input, output, tmp);
    }
  }

  /** The Blender job a strategy runs. */
  function JobOf(s: Strategy, input: Path, output: Path): Job
    requires s != CompressionRepair
  {
    match s
    case BackgroundResave => OpenAndResave(input, output)
    case AppendRecovery => AppendAll(input, output)
    case SelectiveRecovery => CopyAllBlocks(input, output)
  }

  /** The verdict strategies 2 to 4 draw from Blender's run of their job:
      exit status 0 and the strategy's sentinel in the combined output. */
  predicate BlenderVerdict(collab: Collaborator, exe: Path, s: Strategy, input: Path, output: Path)
    requires s != CompressionRepair
  {
    var o := collab.run(exe, JobOf(s, input, output), TimeoutOf(JobOf(s, input, output))).outcome;
    && o.Exited? && o.returncode == 0
    && Contains(o.stdout + o.stderr, StrategySentinel(s))
  }

  /** The sentinel a strategy's script prints once it has saved the output. */
  function StrategySentinel(s: Strategy): string
  {
    if s == BackgroundResave then REPAIR_SUCCESS else RECOVERY_SUCCESS
  }

  /** `repair_with_blender_open`, `repair_with_append` and
      `repair_selective_recovery` (strategies 2, 3 and 4): run the strategy's
      script and accept on a clean exit with the strategy's sentinel. */
  function RunBlenderStrategy(fs: FileSystem, collab: Collaborator, exe: Path, s: Strategy, input: Path, output: Path, script: Path): (e: Effect)
    requires s != CompressionRepair
    ensures e.ok <==> BlenderVerdict(collab, exe, s, input, output)
    ensures script !in e.fs
    ensures forall p :: p != script && p != output ==> Kept(fs, e.fs, p)
  {
    var r := RunBlenderScript(fs, collab, exe, JobOf(s, input, output), script);
    Effect(ScriptSucceeded(r.captured, StrategySentinel(s)), r.fs)
  }

  /** After a strategy's run the output holds what Blender saved there, or is
      untouched when Blender saved nothing. */
  lemma BlenderStrategyOutput(fs: FileSystem, collab: Collaborator, exe: Path, s: Strategy, input: Path, output: Path, script: Path)
    requires s != CompressionRepair && output != script
    ensures var e := RunBlenderStrategy(fs, collab, exe, s, input, output, script);
      var left := collab.run(exe, JobOf(s, input, output), TimeoutOf(JobOf(s, input, output))).leaves;
      && (left.Some? ==> output in e.fs && e.fs[output] == left.value)
      && (left.None? ==> Kept(fs, e.fs, output))
  {
    var r := RunBlenderScript(fs, collab, exe, JobOf(s, input, output), script);
    assert RunBlenderStrategy(fs, collab, exe, s, input, output, script).fs == r.fs;
  }

  /** The verification after strategy 1: Blender opens the output, and the
      repair is confirmed when `VERIFY_SUCCESS` appears, whatever the exit status. */
  function VerifyRepaired(fs: FileSystem, collab: Collaborator, exe: Path, output: Path, script: Path): (e: Effect)
    ensures e.ok <==> Contains(Capture(collab.run(exe, VerifyOpen(output), 60).outcome).output, VERIFY_SUCCESS)
    ensures script !in e.fs
    ensures forall p :: p != script ==> Kept(fs, e.fs, p)
  {
    var r := RunBlenderScript(fs, collab, exe, VerifyOpen(output), script);
    Effect(VerifySucceeded(r.captured), r.fs)
  }
}

=== FILE: version.dfy ===
/**
 * `get_blend_version`: the Blender version recorded in bytes 9 to 11 of the
 * (decompressed) file header, rendered as `"<major>.<minor>"`.
 */
module Version {
  import opened Wrappers
  import opened ByteStrings
  import opened Sniffer
  import opened Codec

  /** The bytes are all 7-bit ASCII, so `bytes.decode('ascii')` succeeds. */
  predicate IsAscii(field: Bytes)
  {
    forall i :: 0 <= i < |field| ==> field[i] < 128
  }

  /** One character per byte, as an ASCII decode produces. */
  function AsciiDecode(field: Bytes): (text: string)
    ensures |text| == |field|
    ensures forall i :: 0 <= i < |field| ==> text[i] == field[i] as int as char
  {
    seq(|field|, i requires 0 <= i < |field| => field[i] as int as char)
  }

  /** Python's `s.lstrip('0')`. */
  function StripLeadingZeros(s: string): (r: string)
    ensures |r| <= |s| && r == s[|s| - |r|..]
    ensures forall i :: 0 <= i < |s| - |r| ==> s[i] == '0'
    ensures |r| > 0 ==> r[0] != '0'
    decreases |s|
  {
    if 0 < |s| && s[0] == '0' then StripLeadingZeros(s[1..]) else s
  }

  /** `m` is the minor part for the digits `digits`: `"0"` when they are all
      zeros (or absent), otherwise their tail after the leading zeros. */
  predicate CanonicalMinor(digits: string, m: string)
  {
    || (m == "0" && forall i :: 0 <= i < |digits| ==> digits[i] == '0')
    || (&& 0 < |m| <= |digits|
        && m[0] != '0'
        && m == digits[|digits| - |m|..]
        && forall i :: 0 <= i < |digits| - |m| ==> digits[i] == '0')
  }

  /** `v` renders the version field of `header`: byte 9 as the major part,
      a dot, and the canonical minor part of bytes 10 and 11. */
  predicate RendersVersion(header: Bytes, v: string)
    requires 10 <= |header|
  {
    && 3 <= |v|
    && v[0] == header[9] as int as char
    && v[1] == '.'
    && CanonicalMinor(AsciiDecode(Slice(header, 10, 12)), v[2..])
  }

  /** The minor text the parser derives from the two characters after the major one. */
  function MinorText(digits: string): string
  {
    var m := StripLeadingZeros(digits);
    if m == "" then "0" else m
  }

  /** The decoded field as text: `version[0]`, a dot, and the minor part of `version[1:3]`. */
  function FormatVersion(text: string): string
    requires 0 < |text|
  {
    [text[0]] + "." + MinorText(Slice(text, 1, 3))
  }

  /** The header-parse part of `get_blend_version`. Python's `version[0]`
      raises on an empty field and `decode('ascii')` on a byte above 127;
      both exceptions become `None`. No byte is checked to be a digit. */
  function ParseVersion(header: Bytes): (v: Option<string>)
    ensures v.Some? <==> BLENDER <= header && 10 <= |header| && IsAscii(Slice(header, 9, 12))
    ensures v.Some? ==> 10 <= |header| && RendersVersion(header, v.value)
  {
    if Take(header, 7) != BLENDER then None
    else
      var field := Slice(header, 9, 12);
      if !IsAscii(field) || |field| == 0 then None
      else
        var text := AsciiDecode(field);
        assert Slice(text, 1, 3) == AsciiDecode(Slice(header, 10, 12));
        Some(FormatVersion(text))
  }

  /** The first twelve bytes of a stream the tool reads through a decoder:
      a decoder that fails after yielding twelve bytes still gives a header. */
  function StreamHeader(t: Transcode): (h: Option<Bytes>)
    ensures h.Some? <==> t.Done? || 12 <= |t.partial|
    ensures h.Some? ==> h.value <= (if t.Done? then t.data else t.partial)
    ensures h.Some? ==> |h.value| == if t.Done? && |t.data| < 12 then |t.data| else 12
  {
    match t
    case Done(data) => Some(Take(data, 12))
    case Broken(partial) => if 12 <= |partial| then Some(partial[..12]) else None
  }

  /** `get_blend_version`: gzip and zstd files are read through their decoder,
      anything else (including unreadable files) raw. */
  function BlendVersion(file: Option<Bytes>, backend: Backend): (v: Option<string>)
    ensures CompressionType(file) == Zstd && !backend.hasZstd ==> v.None?
    ensures file.None? ==> v.None?
    ensures CompressionType(file) in {Uncompressed, Unknown} && file.Some? ==> v == ParseVersion(Take(file.value, 12))
    ensures v.Some? && CompressionType(file) == Uncompressed ==> BLENDER <= file.value
    ensures CompressionType(file) == Gzip || (CompressionType(file) == Zstd && backend.hasZstd) ==>
      match backend.decode(CompressionType(file), file.value)
      case Done(data) => v == ParseVersion(Take(data, 12))
      case Broken(partial) => v == if 12 <= |partial| then ParseVersion(Take(partial, 12)) else None
  {
    var kind := CompressionType(file);
    if kind == Zstd && !backend.hasZstd then None
    else
      var header :=
        if kind == Zstd || kind == Gzip then StreamHeader(backend.decode(kind, file.value))
        else if file.Some? then Some(Take(file.value, 12))
        else None;
      match header
      case None => None
      case Some(h) => ParseVersion(h)
  }

  /** An ASCII decimal digit. */
  predicate IsDigit(b: byte)
  {
    0x30 <= b <= 0x39
  }

  /** A string of decimal digits only. */
  predicate IsDecimal(s: string)
  {
    forall i :: 0 <= i < |s| ==> '0' <= s[i] <= '9'
  }

  /** The numeric value of a string of decimal digits. */
  function DecimalValue(s: string): nat
    requires IsDecimal(s)
    decreases |s|
  {
    if |s| == 0 then 0
    else DecimalValue(s[..|s| - 1]) * 10 + (s[|s| - 1] as int - '0' as int)
  }

  /** The minor part of a full two-character field, case by case. */
  lemma MinorTextOfTwo(b: char, c: char)
    ensures MinorText([b, c]) == if b != '0' then [b, c] else if c != '0' then [c] else "0"
  {
    if b == '0' {
      assert [b, c][1..] == [c];
      if c == '0' {
        assert [c][1..] == "";
      }
    }
  }

  /** The rendering of a full three-character field: the major character, a
      dot, then both minor characters, the last one alone, or `0`. */
  lemma FieldText(a: char, b: char, c: char)
    ensures FormatVersion([a, b, c]) ==
      if b != '0' then [a, '.', b, c] else if c != '0' then [a, '.', c] else [a, '.', '0']
  {
    assert Slice([a, b, c], 1, 3) == [b, c];
    MinorTextOfTwo(b, c);
  }

  /** On a header of at least twelve bytes with an ASCII field, the parse is
      the rendering of bytes 9 to 11; bytes 7, 8 and 12 onwards play no part. */
  lemma ParseFullHeader(header: Bytes)
    requires BLENDER <= header && 12 <= |header|
    requires header[9] < 128 && header[10] < 128 && header[11] < 128
    ensures ParseVersion(header)
      == Some(FormatVersion([header[9] as int as char, header[10] as int as char, header[11] as int as char]))
  {
    var field := Slice(header, 9, 12);
    assert field == [header[9], header[10], header[11]];
    assert IsAscii(field);
    assert Take(header, 7) == BLENDER;
    DecodeThree(header[9], header[10], header[11]);
  }

  /** Decoding three bytes gives their three characters. */
  lemma DecodeThree(a: byte, b: byte, c: byte)
    ensures AsciiDecode([a, b, c]) == [a as int as char, b as int as char, c as int as char]
  {
  }

  /** Worked version strings, including the leading-zero rules and a field
      that is not all digits. */
  lemma VersionExamples()
    ensures FormatVersion("400") == "4.0"
    ensures FormatVersion("402") == "4.2"
    ensures FormatVersion("293") == "2.93"
    ensures FormatVersion("005") == "0.5"
    ensures FormatVersion("050") == "0.50"
    ensures FormatVersion("4x0") == "4.x0"
  {
    FieldText('4', '0', '0');
    FieldText('4', '0', '2');
    FieldText('2', '9', '3');
    FieldText('0', '0', '5');
    FieldText('0', '5', '0');
    FieldText('4', 'x', '0');
  }

  /** For a digit field, the minor part read as a decimal number is the
      two-digit number in bytes 10 and 11, and the major part is byte 9. */
  lemma MinorIsTwoDigitNumber(header: Bytes)
    requires BLENDER <= header && 12 <= |header|
    requires IsDigit(header[9]) && IsDigit(header[10]) && IsDigit(header[11])
    ensures ParseVersion(header).Some?
    ensures ParseVersion(header).value[0] as int - '0' as int == header[9] as int - 0x30
    ensures 2 <= |ParseVersion(header).value| && IsDecimal(ParseVersion(header).value[2..])
    ensures DecimalValue(ParseVersion(header).value[2..]) == (header[10] as int - 0x30) * 10 + (header[11] as int - 0x30)
  {
    ParseFullHeader(header);
    var a := header[9] as int as char;
    var b := header[10] as int as char;
    var c := header[11] as int as char;
    MinorOfDigits(a, b, c);
  }

  /** The rendering of a field whose minor characters are digits: the major
      character first, and a minor part of digits worth the two-digit number. */
  lemma MinorOfDigits(a: char, b: char, c: char)
    requires '0' <= b <= '9' && '0' <= c <= '9'
    ensures var v := FormatVersion([a, b, c]);
      && 2 <= |v| && v[0] == a && IsDecimal(v[2..])
      && DecimalValue(v[2..]) == (b as int - '0' as int) * 10 + (c as int - '0' as int)
  {
    FieldText(a, b, c);
    DecimalOfTwo(b, c);
    var v := FormatVersion([a, b, c]);
    if b != '0' {
      assert v[2..] == [b, c];
    } else if c != '0' {
      assert v[2..] == [c];
    } else {
      assert v[2..] == "0";
    }
  }

  /** The decimal value of the minor part rendered from two digit characters. */
  lemma DecimalOfTwo(b: char, c: char)
    requires '0' <= b <= '9' && '0' <= c <= '9'
    ensures IsDecimal(if b != '0' then [b, c] else if c != '0' then [c] else "0")
    ensures DecimalValue(if b != '0' then [b, c] else if c != '0' then [c] else "0")
      == (b as int - '0' as int) * 10 + (c as int - '0' as int)
  {
    if b != '0' {
      assert [b, c][..1] == [b];
      assert [b][..0] == [];
    } else if c != '0' {
      assert [c][..0] == [];
    } else {
      assert "0"[..0] == [];
    }
  }

  /** Truncated headers: nine bytes give no version, and ten bytes with an
      ASCII byte 9 give that major part with a `0` minor part. */
  lemma ShortHeaderExamples(h: Bytes)
    requires BLENDER <= h
    ensures |h| <= 9 ==> ParseVersion(h) == None
    ensures |h| == 10 && h[9] < 128 ==> ParseVersion(h) == Some([h[9] as int as char, '.', '0'])
  {
    if |h| == 10 && h[9] < 128 {
      assert Take(h, 7) == BLENDER;
      assert Slice(h, 9, 12) == [h[9]];
      var text := AsciiDecode([h[9]]);
      assert text == [h[9] as int as char];
      assert Slice(text, 1, 3) == "";
      assert MinorText("") == "0";
      assert ParseVersion(h) == Some(FormatVersion(text));
      assert FormatVersion(text) == [text[0]] + "." + "0";
      assert [text[0]] + "." + "0" == [h[9] as int as char, '.', '0'];
    }
  }
}

=== FILE: wrappers.dfy ===
/** The optional value used wherever the repair tool returns `None` in place of a result. */
module Wrappers {

  datatype Option<+T> = None | Some(value: T)
}
